=== FILE: README.md ===
# Board store model

A Dafny model of the board store of a Trello-like task board
(`frontend/src/store/modules/board-module.js`): the getters, every
synchronous mutation, and the add/update choice the save actions make
before they commit. The store holds a list of boards, the current board,
a one-slot snapshot of the current board, and the focused task. A board
is a tree: groups, then tasks, and under each task its label ids, member
ids, attachments and checklists of todos. Each mutation edits that tree
in place in the source; here each one is a pure function from the old
tree to the new one.

Modules:

- `JsArray` (`js_array.dfy`): `findIndex`, `find` and `splice` with the
  exact index rules of the ECMAScript standard. When `findIndex` misses it
  answers -1, and `splice(-1, …)` then acts on the LAST element. Every
  remove-by-id and replace-by-id below inherits that behaviour.
- `BoardTree` (`board_tree.dfy`): the data model, the group-then-task
  lookup every mutation starts with, and the "only this part changed"
  predicates. A lookup that misses and is then dereferenced is a JS
  TypeError. This is modelled as `Outcome.Threw`, which carries the tree
  as it stands at the throw. `OnCurrBoard` runs a board mutation on the
  current board; a null current board throws before anything changes.
- `TaskMutations`, `TaskMove`, `TaskSort`, `GroupMutations`,
  `LabelMutations`, `TodoMutations`: the mutations on the board tree.
- `StoreMutations`: the snapshot slot and undo, the board list, the focused
  task, the `board` mutation, the board flags, drag-and-drop, and the getters.
- `SaveActions`: which change the `board`, `group` and `task` actions
  commit, and what each commit does to the collection's size and ids.

Modelling choices:

- Ids are strings, and the empty string stands for a missing id. JS
  `undefined` and `""` are both falsy, which is all the source tests.
- Flags the source may leave undefined (`isWatched`, `checkedHidden`,
  `isStarred`, `isLabelsTextShow`) are booleans, with undefined read as
  false. The source's toggles treat undefined exactly that way.
- `attachments` and `todoLists` are optional because the source creates
  them on first use.
- `utilService.makeId()` is a `freshId` parameter. It must be non-empty,
  and where the source relies on it being new, absent from the collection.
- Persistence is outside the model. The entity persistence hands back to an
  action is a parameter.
- Behaviour of the code worth knowing:
  - `clearCurrBoard` only nulls the current board. It does not invalidate
    the focused task (`StoreMutations.ClearCurrBoard` keeps `currTaskData`).
  - An update or remove whose id is not in the collection is not a no-op.
    `findIndex` answers -1, and `splice(-1, …)` replaces or drops the LAST
    element. The model does the same, and `GroupMutations.ArchiveGroupMissingDropsLast`
    states it for groups.
  - The `templateBoards` getter keeps the boards that are NOT templates, and
    the `boards` getter keeps the templates. The model does the same.

## Model

| member | source | states |
|---|---|---|
| `JsArray.FindIndex` | frontend/src/store/modules/board-module.js:55 | the first index whose key matches, -1 exactly when none does |
| `JsArray.Find` | frontend/src/store/modules/board-module.js:50-51 | `find`: None exactly when no element has the key; otherwise the FIRST element with that key, the one at `FindIndex` |
| `JsArray.Splice` | frontend/src/store/modules/board-module.js:125 | `splice(start, count, ...items)`: the length loses the clamped delete count and gains the items |
| `JsArray.SpliceContents` | frontend/src/store/modules/board-module.js:125 | `splice` keeps the elements before the clamped start, then the items, then the elements after the deleted run |
| `JsArray.SpliceRemoveAt` | frontend/src/store/modules/board-module.js:137 | `splice(i, 1)` at an index in range drops exactly element `i` and returns it |
| `JsArray.SpliceRemoveMinusOne` | frontend/src/store/modules/board-module.js:91 | `splice(-1, 1)` drops and returns the last element, and does nothing on an empty array |
| `JsArray.SpliceInsertAt` | frontend/src/store/modules/board-module.js:125 | `splice(i, 0, x)` at an index in range puts `x` exactly at `i` |
| `JsArray.SpliceReplaceAt` | frontend/src/store/modules/board-module.js:241 | `splice(i, 1, x)` at an index in range is a point update |
| `JsArray.SpliceLosesNothing` | frontend/src/store/modules/board-module.js:122 | what `splice` returns plus what it leaves is what there was |
| `JsArray.SpliceOutKey` | frontend/src/store/modules/board-module.js:89-92 | `splice(findIndex(id), 1)`: drops the first element with the id, or the last element when none has it |
| `JsArray.SpliceInKey` | frontend/src/store/modules/board-module.js:61-63 | `splice(findIndex(id), 1, x)`: replaces the first element with the id, or the last one on a miss; on an empty array inserts `x` |
| `JsArray.SpliceOutKeyDropsKey` | frontend/src/store/modules/board-module.js:89-92 | with unique keys, removing a present key shortens by one, leaves that key absent and ids unique, and removes exactly that element |
| `JsArray.SpliceInKeySameKey` | frontend/src/store/modules/board-module.js:250-252 | replacing by an element with the same id keeps the length, the position of the id and the uniqueness of ids |
| `BoardTree.LocateTask` | frontend/src/store/modules/board-module.js:95-96 | the group-then-task lookup resolves exactly when both ids are present, to the first group and first task with those ids |
| `BoardTree.AllTasksWithGroup` | frontend/src/store/modules/board-module.js:118-126 | replacing one group swaps exactly its tasks in the board's multiset of tasks |
| `BoardTree.OnCurrBoard` | frontend/src/store/modules/board-module.js:71-73 | a board mutation on the current board throws with no change when there is none, and otherwise changes only the current board |
| `TaskMutations.EditTaskTitle` | frontend/src/store/modules/board-module.js:94-98 | throws exactly when group or task is missing, then changes nothing; otherwise only the located task's title becomes the new one |
| `TaskMutations.EditTaskTitleRoundTrip` | frontend/src/store/modules/board-module.js:94-98 | after a title edit the same ids resolve to the same task, and editing the old title back restores the board |
| `TaskMutations.SaveTaskDescription` | frontend/src/store/modules/board-module.js:99-103 | only the located task's description changes; throws with no change on a missing id |
| `TaskMutations.SaveTaskDescriptionRoundTrip` | frontend/src/store/modules/board-module.js:99-103 | writing the old description back restores the board |
| `TaskMutations.SetDueDate` | frontend/src/store/modules/board-module.js:227-231 | only the located task's due date changes |
| `TaskMutations.SetDueDateRoundTrip` | frontend/src/store/modules/board-module.js:227-231 | writing the old due date back restores the board |
| `TaskMutations.SetCover` | frontend/src/store/modules/board-module.js:233-238 | `'reset'` clears the cover, any other value becomes it; nothing else changes |
| `TaskMutations.SetCoverRoundTrip` | frontend/src/store/modules/board-module.js:233-238 | setting the previous cover back (`'reset'` for none) restores the board |
| `TaskMutations.ToggleWatchTask` | frontend/src/store/modules/board-module.js:113-117 | flips only the located task's watch flag |
| `TaskMutations.ToggleWatchTaskTwice` | frontend/src/store/modules/board-module.js:113-117 | toggling the watch flag twice restores the board |
| `TaskMutations.SaveAttachment` | frontend/src/store/modules/board-module.js:128-133 | appends the attachment to the task's list, creating the list when absent |
| `TaskMutations.RemoveAttachment` | frontend/src/store/modules/board-module.js:134-138 | `splice(idx, 1)` on the task's attachments; an absent list throws; an index in range drops that attachment |
| `TaskMutations.SaveThenRemoveAttachment` | frontend/src/store/modules/board-module.js:128-138 | removing the attachment just saved at the end of an existing list restores the board |
| `TaskMutations.ArchiveTask` | frontend/src/store/modules/board-module.js:104-108 | a missing group throws; otherwise only the group's tasks change, by removal of the id or, on a miss, of the last task |
| `TaskMutations.ArchiveTaskDropsTask` | frontend/src/store/modules/board-module.js:104-108 | with unique task ids, a present task is removed from the board exactly once and no other task is lost |
| `TaskMutations.ArchiveAllTasks` | frontend/src/store/modules/board-module.js:109-112 | the located group keeps its other fields and its task list becomes empty |
| `TaskMutations.ArchiveAllTasksCount` | frontend/src/store/modules/board-module.js:109-112 | the board loses exactly that group's tasks |
| `TaskMutations.TaskChange` | frontend/src/store/modules/board-module.js:258-273 | a missing board or group throws unchanged; otherwise only that group's tasks change: add appends, update replaces by id (the last task on a miss), remove splices out by id (the last task on a miss); update points the focused task at the committed one, keeps the focused group, and throws after the replacement exactly when no task is focused |
| `TaskMove.Extracted` | frontend/src/store/modules/board-module.js:120-122 | the task the origin splice takes out: the one-element array `splice(idx, 1)` returns, the found task or the last one on a miss, with the origin's remaining tasks plus it being the original tasks |
| `TaskMove.MoveTask` | frontend/src/store/modules/board-module.js:118-126 | `moveTask` as written: splice out of the origin, then look up the destination and insert at `to.idx` |
| `TaskMove.MoveTaskConservesTasks` | frontend/src/store/modules/board-module.js:118-126 | a completed move keeps the board's multiset of tasks |
| `TaskMove.TakeThenPutKeepsTasks` | frontend/src/store/modules/board-module.js:121-125 | taking one task out of one group and putting it into another keeps the board's multiset of tasks |
| `TaskMove.MoveTaskPlacesTask` | frontend/src/store/modules/board-module.js:118-126 | the moved task lands at `to.idx` of the destination when in range; other groups and board fields are untouched |
| `TaskMove.MoveTaskLosesTaskOnMissingDestination` | frontend/src/store/modules/board-module.js:123-125 | an unknown destination throws after the origin splice, leaving the board one task short |
| `TaskMove.MoveTaskLosesTaskExample` | frontend/src/store/modules/board-module.js:123-125 | one group with one task, moved to a group that does not exist, ends with no task |
| `TaskMove.MoveTaskChecked` | frontend/src/store/modules/board-module.js:118-126 | the move with both groups resolved first: it throws exactly when a group is missing, and then with the board unchanged; when it completes it is the move as written |
| `TaskMove.MoveTaskCheckedConservesTasks` | frontend/src/store/modules/board-module.js:118-126 | whatever the ids, the checked move keeps every task exactly once |
| `TaskSort.Insert` | frontend/src/store/modules/board-module.js:86-87 | insertion keeps the multiset plus the new element and keeps a sorted list sorted |
| `TaskSort.SortBy` | frontend/src/store/modules/board-module.js:86-87 | the result is a permutation of the input, sorted under a total order |
| `TaskSort.SortedPairwise` | frontend/src/store/modules/board-module.js:86-87 | under a total preorder, adjacent order gives all-pairs order |
| `TaskSort.SortOrderIsTotalPreorder` | frontend/src/store/modules/board-module.js:86-87 | each comparator `sortGroup` can pick is a total preorder, given one for titles |
| `TaskSort.SortGroup` | frontend/src/store/modules/board-module.js:84-88 | a missing group throws; otherwise only that group's tasks change, to a sorted permutation of themselves |
| `TaskSort.SortGroupByCreatedAt` | frontend/src/store/modules/board-module.js:84-88 | `'oldest'` orders by ascending creation time, any other non-alphabet key by descending |
| `GroupMutations.DuplicateGroup` | frontend/src/store/modules/board-module.js:75-78 | appends the group under the fresh id, leaves the rest as it was and keeps group ids unique |
| `GroupMutations.DuplicateGroupLocates` | frontend/src/store/modules/board-module.js:75-78 | the copy is found by its new id, and every other id finds what it found before |
| `GroupMutations.ToggleWatchGroup` | frontend/src/store/modules/board-module.js:79-83 | flips only the found group's watch flag; a missing group throws unchanged |
| `GroupMutations.ToggleWatchGroupTwice` | frontend/src/store/modules/board-module.js:79-83 | toggling twice restores the board |
| `GroupMutations.ArchiveGroup` | frontend/src/store/modules/board-module.js:89-92 | removes the group with the id, or the last group on a miss |
| `GroupMutations.ArchiveGroupDropsGroup` | frontend/src/store/modules/board-module.js:89-92 | with unique ids a present group is removed, one fewer group, the rest in order |
| `GroupMutations.ArchiveGroupMissingDropsLast` | frontend/src/store/modules/board-module.js:89-92 | an id not on the board still removes a group, the last one |
| `GroupMutations.GroupChange` | frontend/src/store/modules/board-module.js:244-257 | add appends, update replaces by id, replaces the last group when the id is missing and gives `[group]` on an empty list, remove splices out by id, anything else changes nothing |
| `LabelMutations.ToggleLabelIds` | frontend/src/store/modules/board-module.js:143-146 | a present label id is removed once, the other ids keeping their order; an absent one is appended only below 4 labels; at most 4 stays at most 4 |
| `LabelMutations.ToggleLabel` | frontend/src/store/modules/board-module.js:140-147 | only the located task's label ids change, by that toggle |
| `LabelMutations.ToggleLabelKeepsCeiling` | frontend/src/store/modules/board-module.js:140-147 | no task exceeds 4 labels after a toggle if none did before |
| `LabelMutations.ToggleAllKeepsCeiling` | frontend/src/store/modules/board-module.js:140-147 | no sequence of label toggles takes any task past 4 labels |
| `LabelMutations.ToggleLabelTwiceRestores` | frontend/src/store/modules/board-module.js:140-147 | toggling an absent label twice with room for it restores the board |
| `LabelMutations.SaveLabel` | frontend/src/store/modules/board-module.js:148-162 | a label with an id replaces the board label by id, the last board label when the id is missing, and becomes the only label on an empty list; a new one with 4 task labels changes nothing; otherwise board labels and task labels each gain the fresh id at the end |
| `LabelMutations.SaveLabelKeepsCeiling` | frontend/src/store/modules/board-module.js:151-161 | `saveLabel` keeps the 4-label ceiling, and a created label is found on the board by its new id |
| `LabelMutations.ToggleMemberIds` | frontend/src/store/modules/board-module.js:167-169 | a present member id is spliced out once, the other ids keeping their order; an absent one is appended |
| `LabelMutations.ToggleMemberIdsIsSetToggle` | frontend/src/store/modules/board-module.js:164-170 | on a duplicate-free list the member ends up present exactly when it was absent, and no duplicate appears |
| `LabelMutations.ToggleMember` | frontend/src/store/modules/board-module.js:164-170 | only the located task's member ids change, by that toggle |
| `LabelMutations.ToggleMemberTwiceRestores` | frontend/src/store/modules/board-module.js:164-170 | toggling an absent member twice restores the board |
| `TodoMutations.DoneCount` | frontend/src/store/modules/board-module.js:210 | at most the list's length; zero exactly when none is done and the full length exactly when every one is (the exact value follows from `DoneCountAppend` and `DoneCountFlip`) |
| `TodoMutations.DoneCountAppend` | frontend/src/store/modules/board-module.js:210 | the done count of a concatenation is the sum of the two counts |
| `TodoMutations.DoneCountFlip` | frontend/src/store/modules/board-module.js:209-210 | flipping one todo raises the done count by one when it was not done and lowers it by one when it was |
| `TodoMutations.FloorPercent` | frontend/src/store/modules/board-module.js:211 | the integer quotient of `done * 100` by the length brackets the percentage, lies in 0..100 and is 100 exactly when all are done |
| `TodoMutations.Progress` | frontend/src/store/modules/board-module.js:211 | progress is the rounded-down percentage of done todos, between 0 and 100, 100 exactly when all are done |
| `TodoMutations.FlipTodo` | frontend/src/store/modules/board-module.js:208-211 | only the found todo's done flag flips, and the list's progress is recomputed from the new todos |
| `TodoMutations.FlipTodoMovesDoneCount` | frontend/src/store/modules/board-module.js:209-210 | a toggle raises the list's done count by one when the todo was not done and lowers it by one when it was |
| `TodoMutations.FlipTodoTwice` | frontend/src/store/modules/board-module.js:208-211 | flipping the same todo twice gives the todos back; only the progress is recomputed |
| `TodoMutations.NewTodoList` | frontend/src/store/modules/board-module.js:182-192 | appends an empty list under the fresh id, creating the task's lists when absent |
| `TodoMutations.NewTodoListResolves` | frontend/src/store/modules/board-module.js:182-192 | the new list is the one its id finds, and it is empty |
| `TodoMutations.AddTodo` | frontend/src/store/modules/board-module.js:193-203 | appends a not-done todo under the fresh id to the found list only; a missing task, lists or list throws unchanged |
| `TodoMutations.AddTodoFindsNew` | frontend/src/store/modules/board-module.js:193-203 | the todo just added under a fresh id is the one its id finds, at the end of its list, not done |
| `TodoMutations.ToggleTodoIn` | frontend/src/store/modules/board-module.js:204-212 | none exactly when the lists, the list or the todo is missing; otherwise only the found list changes, by the flip |
| `TodoMutations.ToggleTodoInTwice` | frontend/src/store/modules/board-module.js:204-212 | toggling the same todo twice restores the task but for the recomputed progress |
| `TodoMutations.ToggleTodo` | frontend/src/store/modules/board-module.js:204-212 | throws unchanged exactly when some id in the chain misses; otherwise only the located task changes |
| `TodoMutations.ToggleTodoTwice` | frontend/src/store/modules/board-module.js:204-212 | toggling the same todo twice restores the board but for the recomputed progress |
| `TodoMutations.DeleteTodoList` | frontend/src/store/modules/board-module.js:213-218 | splices the list out by id, or the last list on a miss; a task without lists throws |
| `TodoMutations.DeleteTodoListDropsList` | frontend/src/store/modules/board-module.js:213-218 | with unique list ids a present list is removed: one list fewer and none with that id |
| `TodoMutations.ToggleHideChecked` | frontend/src/store/modules/board-module.js:219-225 | flips only the found list's hide-checked flag |
| `TodoMutations.ToggleHideCheckedTwice` | frontend/src/store/modules/board-module.js:219-225 | toggling twice restores the board |
| `StoreMutations.Undo` | frontend/src/store/modules/board-module.js:36-38 | the current board becomes the snapshot; nothing else changes |
| `StoreMutations.SavePrevState` | frontend/src/store/modules/board-module.js:39-41 | the snapshot slot becomes the current board; nothing else changes |
| `StoreMutations.UndoAfterSnapshot` | frontend/src/store/modules/board-module.js:36-41 | undo right after a snapshot leaves the current board as it is |
| `StoreMutations.SnapshotIsOneSlot` | frontend/src/store/modules/board-module.js:36-41 | a second snapshot overwrites the first, so undo only reaches the latest |
| `StoreMutations.SetBoards` | frontend/src/store/modules/board-module.js:43-45 | the board list is replaced; nothing else changes |
| `StoreMutations.SetBoardsSplitByGetters` | frontend/src/store/modules/board-module.js:16-21 | after `setBoards`, the two list getters together hold each new board exactly once |
| `StoreMutations.UpdateBoard` | frontend/src/store/modules/board-module.js:46-48 | the current board is replaced; nothing else changes |
| `StoreMutations.UndoRevertsReplacement` | frontend/src/store/modules/board-module.js:36-48 | `updateBoard` and the `board` set change replace the current board, so undo after a snapshot brings the snapshot back |
| `StoreMutations.SetCurrTask` | frontend/src/store/modules/board-module.js:49-53 | a missing board or group throws unchanged; otherwise the focus holds the found group and the task the lookup resolves to, absent when it misses |
| `StoreMutations.SetCurrTaskFocusesLocated` | frontend/src/store/modules/board-module.js:49-53 | when the ids resolve, the focused task and group carry those ids |
| `StoreMutations.BoardChange` | frontend/src/store/modules/board-module.js:54-70 | add appends and makes current; update replaces by id (the last board on a miss, the only board on an empty list); remove drops the board with the id, or the last board on a miss; set makes current; anything else changes nothing |
| `StoreMutations.ChangeBoardTitle` | frontend/src/store/modules/board-module.js:71-73 | only the current board's title changes; no current board throws |
| `StoreMutations.ChangeBoardTitleRoundTrip` | frontend/src/store/modules/board-module.js:71-73 | setting the old title back restores the state |
| `StoreMutations.ClearCurrBoard` | frontend/src/store/modules/board-module.js:277-279 | the current board becomes null and the focused task stays as it was |
| `StoreMutations.ClearedBoardRejectsMutations` | frontend/src/store/modules/board-module.js:277-279 | after clearing, every board mutation and task focus throws without change |
| `StoreMutations.DragTask` | frontend/src/store/modules/board-module.js:240-243 | the given board, with the group at the index replaced (appended past the end), becomes current |
| `StoreMutations.DragTaskKeepsTasks` | frontend/src/store/modules/board-module.js:240-243 | a drag that only reorders the dragged group's tasks keeps every task of the board |
| `StoreMutations.ToggleStarred` | frontend/src/store/modules/board-module.js:171-175 | flips the star and nothing else |
| `StoreMutations.ToggleStarredTwice` | frontend/src/store/modules/board-module.js:171-175 | starring a board twice gives the same board back |
| `StoreMutations.ToggleBoardStarred` | frontend/src/store/modules/board-module.js:171-175 | with no board passed, the current board's star flips; no current board throws |
| `StoreMutations.ToggleBoardStarredTwice` | frontend/src/store/modules/board-module.js:171-175 | with no board passed, starring twice restores the state |
| `StoreMutations.ToggleLabelsText` | frontend/src/store/modules/board-module.js:176-180 | flips only the current board's show-label-text flag |
| `StoreMutations.ToggleLabelsTextTwice` | frontend/src/store/modules/board-module.js:176-180 | toggling twice restores the state |
| `StoreMutations.SetBg` | frontend/src/store/modules/board-module.js:274-276 | sets the background; no current board or no style object throws unchanged |
| `StoreMutations.SetBgRoundTrip` | frontend/src/store/modules/board-module.js:274-276 | setting the old background back restores the state |
| `StoreMutations.WithTemplateFlag` | frontend/src/store/modules/board-module.js:16-21 | the boards with the given template flag: exactly those of the input, and only boards with that flag |
| `StoreMutations.WithTemplateFlagCounts` | frontend/src/store/modules/board-module.js:16-21 | `filter` keeps each board with the flag as many times as it occurs, and no board without it |
| `StoreMutations.WithTemplateFlagAppend` | frontend/src/store/modules/board-module.js:16-21 | filtering a concatenation is the concatenation of the filtered parts, so the input order is kept |
| `StoreMutations.WithTemplateFlagOne` | frontend/src/store/modules/board-module.js:16-21 | one board is kept exactly when its flag matches |
| `StoreMutations.WithTemplateFlagCons` | frontend/src/store/modules/board-module.js:16-21 | filtering a list with a board in front keeps that board, in front, exactly when its flag matches |
| `StoreMutations.TemplateBoards` | frontend/src/store/modules/board-module.js:16-18 | the boards that are not templates, in input order, as written |
| `StoreMutations.Boards` | frontend/src/store/modules/board-module.js:19-21 | the template boards, in input order, as written |
| `StoreMutations.GettersPartitionBoards` | frontend/src/store/modules/board-module.js:16-21 | the two getters split the board list: together they hold every board exactly once |
| `StoreMutations.BoardMembers` | frontend/src/store/modules/board-module.js:22-24 | the current board's members; throws without a current board |
| `StoreMutations.BoardLabels` | frontend/src/store/modules/board-module.js:25-27 | the current board's labels; throws without a current board |
| `StoreMutations.Groups` | frontend/src/store/modules/board-module.js:28-30 | the current board's groups; throws without a current board |
| `StoreMutations.GettersFollowCurrBoard` | frontend/src/store/modules/board-module.js:12-34 | after a board mutation, the board getters see exactly the mutated board and the list getters are unchanged |
| `SaveActions.SaveChange` | frontend/src/store/modules/board-module.js:297 | update exactly when the entity has an id, add exactly when it has none |
| `SaveActions.ActionChange` | frontend/src/store/modules/board-module.js:295-304 | `save` picks by id, `remove` removes, `set` sets on boards only, anything else is no change |
| `SaveActions.SaveBoardDelta` | frontend/src/store/modules/board-module.js:293-307 | saving a board without an id appends it and makes it current; with a listed id it is replaced in place; ids stay unique |
| `SaveActions.RemoveBoardDelta` | frontend/src/store/modules/board-module.js:299-307 | removing a listed board drops exactly it and keeps ids unique |
| `SaveActions.SaveGroupDelta` | frontend/src/store/modules/board-module.js:321-331 | saving a group without an id appends it; with a present id it is replaced in place; ids stay unique |
| `SaveActions.RemoveGroupDelta` | frontend/src/store/modules/board-module.js:327-331 | removing a present group drops exactly it |
| `SaveActions.SaveTaskDelta` | frontend/src/store/modules/board-module.js:336-346 | saving a task without an id appends it to its group; with a present id it is replaced in place and focused, or the commit throws without a focus |
| `SaveActions.RemoveTaskDelta` | frontend/src/store/modules/board-module.js:342-346 | removing a present task drops exactly it and leaves the focus alone |

## Left out

- The asynchronous actions are not modelled beyond the change they commit. These are the persistence calls, logging, `loadBoards`, `saveBoard`, `setState`, `updateGroups` and the drag handlers. The entity persistence returns is a parameter.
- The `saveBoard` action's catch block calls `commit`, which that action never receives. So the rollback it intends never runs. It is async and outside the model.
- The snapshot is an alias in the source. `savePrevState` stores a reference to the current board tree, and later mutations edit that tree in place, so `undo` in the source does not bring back an earlier tree. The model holds values, so the snapshot here is a copy. No lemma claims that rollback works.
- `applyDrag`, `pushActivity` and `utilService.makeId` are not part of this model. `dragTask` takes the rearranged group as given, and fresh ids are parameters.
- The `board` and `currTaskData` getters return a state field unchanged, so they have no member of their own.
- TodoMutations.Progress: this is integer floor division. The source computes `parseInt((done / length) * 100)` in floating point, which can land one below the floor (29 of 100 gives 28.999…, read as 28). The source then appends `'%'` and stores the string under the misspelt field `prograss`. The model's `progress` field stands for that field.
- TodoMutations.FlipTodo: progress is stated with the integer floor, for the reason above.
- TaskMove.MoveTask: requires the origin group, when it resolves, to hold at least one task. On an empty origin the source inserts `undefined` into the destination, which a list of tasks cannot hold.
- StoreMutations.ToggleBoardStarred: when a board is passed, the source flips the star on that object, which may alias a board in the store. The model leaves the state as it is and offers `ToggleStarred` for the passed board.
- TaskSort.SortGroup: `localeCompare` is locale-dependent library code. The alphabet order is a parameter that is required to be a total preorder. Sort stability is not stated.
- StoreMutations.DragTask: the source mutates the board object it is passed. The model returns the new board as current and does not model aliasing between that object and the store.
- Several objects in the source are shared references, and the model holds copies. The focused task is one such object. A later edit of a task in the tree does not show through `currTaskData` in the model as it would in the source.
- Concurrency and overlapping persistence requests are not modelled.

## Findings

| source | as written | input that shows it | evidently intended | confidence | as-written member | corrected member |
|---|---|---|---|---|---|---|
| frontend/src/store/modules/board-module.js:118-126 | `moveTask` splices the task out of the origin group, and only then looks up the destination group; an unknown destination throws after the removal | a board with group `g1` holding task `t1`, moved from `g1` to `g2` where no `g2` exists: the board ends with no task | resolve both groups before changing anything, so that a move either completes or leaves the board as it was | not executed | `TaskMove.MoveTaskLosesTaskOnMissingDestination` | `TaskMove.MoveTaskCheckedConservesTasks` |

=== FILE: board_tree.dfy ===
/**
  The board tree the store holds (Board → groups → tasks → labelIds,
  memberIds, attachments, todoLists → todos), the store's own state record,
  and the locator every mutation starts with: `groups.find` by group id, then
  `tasks.find` by task id.

  Ids are strings; the empty string stands for an id that is absent (JS
  `undefined`), which is falsy exactly as "" is. A flag the source may leave
  undefined (`isWatched`, `checkedHidden`, …) is a `bool` read as false when
  absent. `attachments` and `todoLists` are optional because the source
  creates them on first use.
 */
module BoardTree {
  import opened JsArray

  type Id = string

  datatype Label = Label(id: Id, title: string, color: string)
  datatype Member = Member(id: Id, fullname: string)
  datatype Attachment = Attachment(url: string, name: string)

  datatype Todo = Todo(id: Id, title: string, isDone: bool)

  /** `progress` is the percentage of done todos, absent until the first toggle. */
  datatype TodoList = TodoList(id: Id, title: string, todos: seq<Todo>, checkedHidden: bool, progress: Option<int>)

  datatype Task = Task(
    id: Id,
    title: string,
    description: string,
    dueDate: Option<int>,
    cover: Option<string>,
    isWatched: bool,
    createdAt: int,
    labelIds: seq<Id>,
    memberIds: seq<Id>,
    attachments: Option<seq<Attachment>>,
    todoLists: Option<seq<TodoList>>)

  datatype Group = Group(id: Id, title: string, isWatched: bool, tasks: seq<Task>)

  datatype Style = Style(background: string)

  /** `id` is the persisted `_id`. */
  datatype Board = Board(
    id: Id,
    title: string,
    isTemplate: bool,
    isStarred: bool,
    isLabelsTextShow: bool,
    style: Option<Style>,
    members: seq<Member>,
    labels: seq<Label>,
    groups: seq<Group>)

  /** The task open in the detail view, with its group; `task` is absent when its lookup missed. */
  datatype TaskData = TaskData(group: Group, task: Option<Task>)

  datatype State = State(
    boards: seq<Board>,
    currBoard: Option<Board>,
    previousBoardState: Option<Board>,
    currTaskData: Option<TaskData>)

  /**
    What a mutation leaves behind. `Threw` is a JS TypeError (a property read
    on the `undefined` a failed lookup produced); `after` is the tree as it
    stands at that point, including any edit made before the throw.
   */
  datatype Outcome<T> = Done(after: T) | Threw(after: T)

  /** The `change` of a `board`, `group` or `task` commit; `NoChange` is the undefined one that matches no case. */
  datatype Change = Add | Update | Remove | Set | NoChange

  function GroupKey(g: Group): Id { g.id }
  function TaskKey(t: Task): Id { t.id }
  function ListKey(l: TodoList): Id { l.id }
  function TodoKey(t: Todo): Id { t.id }
  function LabelKey(l: Label): Id { l.id }
  function BoardKey(b: Board): Id { b.id }

  /** Position of a task: index of its group in the board, index of the task in the group. */
  datatype TaskPath = TaskPath(g: nat, t: nat)

  ghost predicate ValidPath(b: Board, p: TaskPath) {
    p.g < |b.groups| && p.t < |b.groups[p.g].tasks|
  }

  function TaskAt(b: Board, p: TaskPath): Task
    requires ValidPath(b, p)
  {
    b.groups[p.g].tasks[p.t]
  }

  /**
    The first group with the id, then the first task with the id in that group.
    None exactly where the source goes on to dereference `undefined`.
   */
  function LocateTask(b: Board, groupId: Id, taskId: Id): (p: Option<TaskPath>)
    ensures p.Some? ==> ValidPath(b, p.value)
    ensures p.Some? ==> b.groups[p.value.g].id == groupId && TaskAt(b, p.value).id == taskId
    ensures p.Some? ==> p.value.g == FindIndex(b.groups, GroupKey, groupId)
    ensures p.Some? ==> p.value.t == FindIndex(b.groups[p.value.g].tasks, TaskKey, taskId)
    ensures p.None? <==> (FreshKey(b.groups, GroupKey, groupId)
                          || FreshKey(b.groups[FindIndex(b.groups, GroupKey, groupId)].tasks, TaskKey, taskId))
  {
    var g := FindIndex(b.groups, GroupKey, groupId);
    if g < 0 then None
    else
      var t := FindIndex(b.groups[g].tasks, TaskKey, taskId);
      if t < 0 then None else Some(TaskPath(g, t))
  }

  /** Everything but group `i` is as in `b`. */
  ghost predicate OnlyGroupDiffers(b: Board, r: Board, i: nat)
    requires i < |b.groups|
  {
    && r.(groups := b.groups) == b
    && |r.groups| == |b.groups|
    && forall j :: 0 <= j < |b.groups| && j != i ==> r.groups[j] == b.groups[j]
  }

  /** Everything but the task at `p` is as in `b`. */
  ghost predicate OnlyTaskDiffers(b: Board, r: Board, p: TaskPath)
    requires ValidPath(b, p)
  {
    && OnlyGroupDiffers(b, r, p.g)
    && r.groups[p.g].(tasks := b.groups[p.g].tasks) == b.groups[p.g]
    && |r.groups[p.g].tasks| == |b.groups[p.g].tasks|
    && forall j :: 0 <= j < |b.groups[p.g].tasks| && j != p.t ==>
         r.groups[p.g].tasks[j] == b.groups[p.g].tasks[j]
  }

  function WithGroup(b: Board, i: nat, g: Group): (r: Board)
    requires i < |b.groups|
    ensures OnlyGroupDiffers(b, r, i) && r.groups[i] == g
  {
    b.(groups := b.groups[i := g])
  }

  function WithTask(b: Board, p: TaskPath, t: Task): (r: Board)
    requires ValidPath(b, p)
    ensures ValidPath(r, p) && OnlyTaskDiffers(b, r, p) && TaskAt(r, p) == t
  {
    var g := b.groups[p.g];
    WithGroup(b, p.g, g.(tasks := g.tasks[p.t := t]))
  }

  /** Every task of the board, group after group. */
  function AllTasks(gs: seq<Group>): seq<Task> {
    if |gs| == 0 then [] else gs[0].tasks + AllTasks(gs[1..])
  }

  /** Replacing one group swaps its tasks, and only its tasks, in the board's task multiset. */
  lemma {:induction false} AllTasksWithGroup(gs: seq<Group>, i: nat, g: Group)
    requires i < |gs|
    ensures multiset(AllTasks(gs[i := g])) + multiset(gs[i].tasks) == multiset(AllTasks(gs)) + multiset(g.tasks)
  {
    if i == 0 {
      assert gs[i := g][1..] == gs[1..];
    } else {
      var hs := gs[i := g];
      assert hs[1..] == gs[1..][i - 1 := g];
      AllTasksWithGroup(gs[1..], i - 1, g);
      assert gs[1..][i - 1] == gs[i];
      assert AllTasks(hs) == gs[0].tasks + AllTasks(hs[1..]);
      assert AllTasks(gs) == gs[0].tasks + AllTasks(gs[1..]);
      calc {
        multiset(AllTasks(hs)) + multiset(gs[i].tasks);
        multiset(gs[0].tasks) + (multiset(AllTasks(gs[1..][i - 1 := g])) + multiset(gs[1..][i - 1].tasks));
        multiset(gs[0].tasks) + (multiset(AllTasks(gs[1..])) + multiset(g.tasks));
        multiset(AllTasks(gs)) + multiset(g.tasks);
      }
    }
  }

  /**
    The board-wide bookkeeping of a group replacement: if the new group's
    tasks plus `x` are the old group's tasks plus `y`, the board's tasks
    change the same way.
   */
  lemma AllTasksReplaceGroup(gs: seq<Group>, i: nat, g: Group, x: multiset<Task>, y: multiset<Task>)
    requires i < |gs|
    requires multiset(g.tasks) + x == multiset(gs[i].tasks) + y
    ensures multiset(AllTasks(gs[i := g])) + x == multiset(AllTasks(gs)) + y
  {
    AllTasksWithGroup(gs, i, g);
    var a', a := multiset(AllTasks(gs[i := g])), multiset(AllTasks(gs));
    var w, n := multiset(gs[i].tasks), multiset(g.tasks);
    forall z
      ensures (a' + x)[z] == (a + y)[z]
    {
      assert (a' + w)[z] == (a + n)[z];
      assert (n + x)[z] == (w + y)[z];
    }
  }

  /** Rewriting one task without changing its id leaves every lookup resolving where it did. */
  lemma OnlyTaskDiffersKeepsLocate(b: Board, r: Board, p: TaskPath, groupId: Id, taskId: Id)
    requires ValidPath(b, p) && ValidPath(r, p) && OnlyTaskDiffers(b, r, p)
    requires TaskAt(r, p).id == TaskAt(b, p).id
    ensures LocateTask(r, groupId, taskId) == LocateTask(b, groupId, taskId)
  {
    assert forall j :: 0 <= j < |b.groups| ==> b.groups[j].id == r.groups[j].id;
    FindIndexSameKeys(b.groups, r.groups, GroupKey, groupId);
    var g := FindIndex(b.groups, GroupKey, groupId);
    if g >= 0 {
      FindIndexSameKeys(b.groups[g].tasks, r.groups[g].tasks, TaskKey, taskId);
    }
  }

  /** Writing back the task that was there undoes a task rewrite. */
  lemma WithTaskRestores(b: Board, p: TaskPath, t: Task)
    requires ValidPath(b, p)
    ensures WithTask(WithTask(b, p, t), p, TaskAt(b, p)) == b
  {
    var r := WithTask(WithTask(b, p, t), p, TaskAt(b, p));
    assert r.groups[p.g].tasks == b.groups[p.g].tasks;
    assert r.groups == b.groups;
  }

  /** A second rewrite of the same task overrides the first. */
  lemma WithTaskTwice(b: Board, p: TaskPath, t: Task, u: Task)
    requires ValidPath(b, p)
    ensures WithTask(WithTask(b, p, t), p, u) == WithTask(b, p, u)
  {
    var r := WithTask(WithTask(b, p, t), p, u);
    assert r.groups[p.g].tasks == b.groups[p.g].tasks[p.t := u];
    assert r.groups == b.groups[p.g := b.groups[p.g].(tasks := b.groups[p.g].tasks[p.t := u])];
  }

  /** The store-wide invariant the label toggles keep: no task carries more than 4 labels. */
  ghost predicate LabelCeiling(b: Board) {
    forall i, j :: 0 <= i < |b.groups| && 0 <= j < |b.groups[i].tasks| ==> |b.groups[i].tasks[j].labelIds| <= 4
  }

  /**
    A board mutation as the store runs it: on `state.currBoard`, whose
    absence (null) makes the first property read throw before anything changes.
   */
  function OnCurrBoard(s: State, f: Board -> Outcome<Board>): (r: Outcome<State>)
    ensures s.currBoard.None? ==> r == Threw(s)
    ensures s.currBoard.Some? ==> r.Done? == f(s.currBoard.value).Done?
    ensures s.currBoard.Some? ==> r.after.currBoard == Some(f(s.currBoard.value).after)
    ensures r.after.(currBoard := s.currBoard) == s
  {
    match s.currBoard
    case None => Threw(s)
    case Some(b) =>
      var o := f(b);
      if o.Done? then Done(s.(currBoard := Some(o.after))) else Threw(s.(currBoard := Some(o.after)))
  }
}

=== FILE: group_mutations.dfy ===
/**
  The group mutations of the board store: duplicate, watch toggle, archive,
  and the `group` add/update/remove mutation the save and remove actions
  commit. Sorting a group's tasks lives in TaskSort.
 */
module GroupMutations {
  import opened JsArray
  import opened BoardTree

  /**
    `duplicateGroup`: the given group, under a freshly made id, is appended
    to the board's groups.
   */
  function DuplicateGroup(b: Board, group: Group, freshId: Id): (r: Board)
    requires freshId != "" && FreshKey(b.groups, GroupKey, freshId)
    ensures r.(groups := b.groups) == b
    ensures |r.groups| == |b.groups| + 1
    ensures r.groups[..|b.groups|] == b.groups
    ensures r.groups[|b.groups|] == group.(id := freshId)
    ensures UniqueKeys(b.groups, GroupKey) ==> UniqueKeys(r.groups, GroupKey)
  {
    b.(groups := b.groups + [group.(id := freshId)])
  }

  /** The duplicate is found by its new id, and every other id still finds what it found before. */
  lemma DuplicateGroupLocates(b: Board, group: Group, freshId: Id, groupId: Id)
    requires freshId != "" && FreshKey(b.groups, GroupKey, freshId)
    ensures FindIndex(DuplicateGroup(b, group, freshId).groups, GroupKey, freshId) == |b.groups|
    ensures groupId != freshId ==>
              FindIndex(DuplicateGroup(b, group, freshId).groups, GroupKey, groupId) == FindIndex(b.groups, GroupKey, groupId)
  {
    var r := DuplicateGroup(b, group, freshId);
    assert r.groups[|b.groups|].id == freshId;
    var i := FindIndex(b.groups, GroupKey, groupId);
    if groupId != freshId && i < 0 {
      assert forall j :: 0 <= j < |r.groups| ==> r.groups[j].id != groupId by {
        forall j | 0 <= j < |r.groups| ensures r.groups[j].id != groupId {
          if j < |b.groups| { assert r.groups[j] == b.groups[j]; }
        }
      }
    }
  }

  /** `toggleWatchGroup`: flips the watch flag of the first group with the id (undefined reads as false). */
  function ToggleWatchGroup(b: Board, groupId: Id): (r: Outcome<Board>)
    ensures r.Threw? <==> FreshKey(b.groups, GroupKey, groupId)
    ensures r.Threw? ==> r.after == b
    ensures r.Done? ==> var g := FindIndex(b.groups, GroupKey, groupId);
      && OnlyGroupDiffers(b, r.after, g)
      && r.after.groups[g].isWatched != b.groups[g].isWatched
      && r.after.groups[g].(isWatched := b.groups[g].isWatched) == b.groups[g]
  {
    var g := FindIndex(b.groups, GroupKey, groupId);
    if g < 0 then Threw(b)
    else
      var grp := b.groups[g];
      Done(WithGroup(b, g, grp.(isWatched := if grp.isWatched then false else true)))
  }

  /** Watching a group is an involution: toggling twice restores the board. */
  lemma ToggleWatchGroupTwice(b: Board, groupId: Id)
    ensures ToggleWatchGroup(ToggleWatchGroup(b, groupId).after, groupId).after == b
  {
    var o := ToggleWatchGroup(b, groupId);
    if o.Done? {
      var g := FindIndex(b.groups, GroupKey, groupId);
      assert forall j :: 0 <= j < |b.groups| ==> o.after.groups[j].id == b.groups[j].id;
      FindIndexSameKeys(b.groups, o.after.groups, GroupKey, groupId);
      assert ToggleWatchGroup(o.after, groupId).after.groups == b.groups;
    }
  }

  /**
    `archiveGroup`: splices out the group at the id's index. A present id drops its
    first group; a missing id drops the board's LAST group.
   */
  function ArchiveGroup(b: Board, groupId: Id): (r: Board)
    ensures r.(groups := b.groups) == b
    ensures r.groups == SpliceOutKey(b.groups, GroupKey, groupId)
  {
    b.(groups := SpliceOutKey(b.groups, GroupKey, groupId))
  }

  /** With unique group ids, archiving a present group removes exactly that group, keeping the rest in order. */
  lemma ArchiveGroupDropsGroup(b: Board, groupId: Id)
    requires UniqueKeys(b.groups, GroupKey) && !FreshKey(b.groups, GroupKey, groupId)
    ensures var r := ArchiveGroup(b, groupId);
      var i := FindIndex(b.groups, GroupKey, groupId);
      && |r.groups| == |b.groups| - 1
      && FreshKey(r.groups, GroupKey, groupId)
      && UniqueKeys(r.groups, GroupKey)
      && r.groups == b.groups[..i] + b.groups[i + 1..]
  {
    SpliceOutKeyDropsKey(b.groups, GroupKey, groupId);
  }

  /** As written, archiving an id that is not on the board still removes a group: the last one. */
  lemma ArchiveGroupMissingDropsLast(b: Board, groupId: Id)
    requires FreshKey(b.groups, GroupKey, groupId) && 0 < |b.groups|
    ensures ArchiveGroup(b, groupId).groups == b.groups[..|b.groups| - 1]
  {
  }

  /**
    `group`: add appends; update replaces the first group with the same id
    (a miss replaces the last group); remove drops the first group with the
    id (a miss drops the last group); any other change does nothing.
   */
  function GroupChange(b: Board, change: Change, group: Group): (r: Board)
    ensures r.(groups := b.groups) == b
    ensures change == Add ==> r.groups == b.groups + [group]
    ensures change == Update ==> |r.groups| == if |b.groups| == 0 then 1 else |b.groups|
    ensures change == Update && !FreshKey(b.groups, GroupKey, group.id) ==>
              r.groups == b.groups[FindIndex(b.groups, GroupKey, group.id) := group]
    ensures change == Update && FreshKey(b.groups, GroupKey, group.id) && 0 < |b.groups| ==>
              r.groups == b.groups[|b.groups| - 1 := group]
    ensures change == Update && |b.groups| == 0 ==> r.groups == [group]
    ensures change == Remove ==> r.groups == SpliceOutKey(b.groups, GroupKey, group.id)
    ensures change in {Set, NoChange} ==> r == b
  {
    match change
    case Add => b.(groups := b.groups + [group])
    case Update => b.(groups := SpliceInKey(b.groups, GroupKey, group.id, group))
    case Remove => b.(groups := SpliceOutKey(b.groups, GroupKey, group.id))
    case _ => b
  }
}

=== FILE: js_array.dfy ===
/**
  The JavaScript array primitives the board store is built on (`find`,
  `findIndex`, `splice`), restated over immutable sequences with the
  exact index semantics of the ECMAScript standard: a negative `splice` start
  counts back from the end, and both the start and the delete count clamp to
  the array. In particular `findIndex` answers -1 on a miss, and
  `splice(-1, 1)` then acts on the LAST element.
 */
module JsArray {

  datatype Option<+T> = None | Some(value: T)

  /** `s.findIndex(x => key(x) === k)`: the first position whose key is `k`, or -1. */
  function FindIndex<T, K(==)>(s: seq<T>, key: T -> K, k: K): (i: int)
    ensures -1 <= i < |s|
    ensures 0 <= i ==> key(s[i]) == k
    ensures 0 <= i ==> forall j :: 0 <= j < i ==> key(s[j]) != k
    ensures i == -1 <==> forall j :: 0 <= j < |s| ==> key(s[j]) != k
  {
    if |s| == 0 then -1
    else if key(s[0]) == k then 0
    else
      var i := FindIndex(s[1..], key, k);
      if i == -1 then -1 else i + 1
  }

  /** `s.find(x => key(x) === k)`: the first element whose key is `k`, or undefined. */
  function Find<T, K(==)>(s: seq<T>, key: T -> K, k: K): (r: Option<T>)
    ensures r.None? <==> forall j :: 0 <= j < |s| ==> key(s[j]) != k
    ensures r.Some? ==> r.value in s && key(r.value) == k
    ensures r.Some? ==> r.value == s[FindIndex(s, key, k)]
  {
    var i := FindIndex(s, key, k);
    if i < 0 then None else Some(s[i])
  }

  /** The identity key, for `ids.findIndex(id => id === k)` over a list of ids. */
  function Itself<K>(x: K): K { x }

  /** Where `splice(start, …)` starts on an array of length `len`. */
  function SpliceStart(len: nat, start: int): (k: nat)
    ensures k <= len
    ensures 0 <= start <= len ==> k == start
    ensures start < 0 && 0 <= len + start ==> k == len + start
  {
    if start < 0 then (if len + start < 0 then 0 else len + start)
    else if start > len then len
    else start
  }

  /** How many elements `splice(start, deleteCount, …)` removes from an array of length `len`. */
  function SpliceCount(len: nat, start: int, deleteCount: int): (d: nat)
    ensures SpliceStart(len, start) + d <= len
    ensures d <= deleteCount || d == 0
  {
    var k := SpliceStart(len, start);
    if deleteCount < 0 then 0
    else if deleteCount > len - k then len - k
    else deleteCount
  }

  /** The contents of `s` after `s.splice(start, deleteCount, ...items)`. */
  function Splice<T>(s: seq<T>, start: int, deleteCount: int, items: seq<T>): (r: seq<T>)
    ensures |r| == |s| - SpliceCount(|s|, start, deleteCount) + |items|
  {
    var k := SpliceStart(|s|, start);
    s[..k] + items + s[k + SpliceCount(|s|, start, deleteCount)..]
  }

  /**
    What `splice` leaves: the elements before the start, then the items, then
    the elements after the deleted run, each in its original order.
   */
  lemma SpliceContents<T>(s: seq<T>, start: int, deleteCount: int, items: seq<T>)
    ensures var r := Splice(s, start, deleteCount, items);
      var k := SpliceStart(|s|, start);
      && r[..k] == s[..k]
      && r[k..k + |items|] == items
      && r[k + |items|..] == s[k + SpliceCount(|s|, start, deleteCount)..]
  {
  }

  /** The value `s.splice(start, deleteCount, …)` returns: the removed elements. */
  function Removed<T>(s: seq<T>, start: int, deleteCount: int): (r: seq<T>)
    ensures |r| == SpliceCount(|s|, start, deleteCount)
  {
    var k := SpliceStart(|s|, start);
    s[k..k + SpliceCount(|s|, start, deleteCount)]
  }

  /** `splice` loses nothing: what it removes plus what it leaves is what there was. */
  lemma SpliceLosesNothing<T>(s: seq<T>, start: int, deleteCount: int)
    ensures multiset(Removed(s, start, deleteCount)) + multiset(Splice(s, start, deleteCount, []))
            == multiset(s)
  {
    var k := SpliceStart(|s|, start);
    var e := k + SpliceCount(|s|, start, deleteCount);
    assert s == s[..k] + s[k..e] + s[e..];
    assert Splice(s, start, deleteCount, []) == s[..k] + s[e..];
  }

  /** Removing at an index in range drops exactly that element and keeps the others in order. */
  lemma SpliceRemoveAt<T>(s: seq<T>, i: int)
    requires 0 <= i < |s|
    ensures Splice(s, i, 1, []) == s[..i] + s[i + 1..]
    ensures Removed(s, i, 1) == [s[i]]
  {
  }

  /** A miss of `findIndex` fed to `splice(-1, 1)` drops the last element (or nothing from []). */
  lemma SpliceRemoveMinusOne<T>(s: seq<T>)
    ensures |s| > 0 ==> Splice(s, -1, 1, []) == s[..|s| - 1]
    ensures |s| > 0 ==> Removed(s, -1, 1) == [s[|s| - 1]]
    ensures |s| == 0 ==> Splice(s, -1, 1, []) == []
  {
  }

  /** Inserting at an index in range puts the item exactly there. */
  lemma SpliceInsertAt<T>(s: seq<T>, i: int, x: T)
    requires 0 <= i <= |s|
    ensures Splice(s, i, 0, [x]) == s[..i] + [x] + s[i..]
    ensures Splice(s, i, 0, [x])[i] == x
  {
  }

  /** Inserting one item, wherever the start lands, adds exactly that item. */
  lemma SpliceInsertAdds<T>(s: seq<T>, start: int, x: T)
    ensures multiset(Splice(s, start, 0, [x])) == multiset(s) + multiset{x}
  {
    var k := SpliceStart(|s|, start);
    assert s == s[..k] + s[k..];
    assert Splice(s, start, 0, [x]) == s[..k] + [x] + s[k..];
  }

  /** Replacing at an index in range is a point update. */
  lemma SpliceReplaceAt<T>(s: seq<T>, i: int, x: T)
    requires 0 <= i < |s|
    ensures Splice(s, i, 1, [x]) == s[i := x]
  {
    var r := Splice(s, i, 1, [x]);
    assert |r| == |s|;
    forall j | 0 <= j < |s|
      ensures r[j] == s[i := x][j]
    {
      if j < i {
        assert r[j] == s[..i][j];
      } else if j > i {
        assert r[j] == s[i + 1..][j - i - 1];
      }
    }
  }

  /**
    `s.splice(s.findIndex(x => key(x) === k), 1)`: drops the first element
    keyed `k`; when there is none, `findIndex` answers -1 and the LAST
    element goes instead.
   */
  function SpliceOutKey<T, K(==)>(s: seq<T>, key: T -> K, k: K): (r: seq<T>)
    ensures 0 <= FindIndex(s, key, k) ==>
              r == s[..FindIndex(s, key, k)] + s[FindIndex(s, key, k) + 1..]
    ensures FindIndex(s, key, k) < 0 && 0 < |s| ==> r == s[..|s| - 1]
    ensures |s| == 0 ==> r == []
  {
    var i := FindIndex(s, key, k);
    SpliceRemoveMinusOne(s);
    if 0 <= i then SpliceRemoveAt(s, i); Splice(s, i, 1, [])
    else Splice(s, i, 1, [])
  }

  /**
    `s.splice(s.findIndex(x => key(x) === k), 1, x)`: replaces the first
    element keyed `k`; when there is none, `findIndex` answers -1 and the
    LAST element is replaced instead (on an empty array `x` is inserted).
   */
  function SpliceInKey<T, K(==)>(s: seq<T>, key: T -> K, k: K, x: T): (r: seq<T>)
    ensures 0 <= FindIndex(s, key, k) ==> r == s[FindIndex(s, key, k) := x]
    ensures FindIndex(s, key, k) < 0 && 0 < |s| ==> r == s[|s| - 1 := x]
    ensures |s| == 0 ==> r == [x]
  {
    var i := FindIndex(s, key, k);
    if 0 <= i then SpliceReplaceAt(s, i, x); Splice(s, i, 1, [x])
    else if 0 < |s| then SpliceReplaceAt(s, |s| - 1, x); Splice(s, i, 1, [x])
    else Splice(s, i, 1, [x])
  }

  /** With unique keys, splicing out a present key removes that one element and no other. */
  lemma SpliceOutKeyDropsKey<T, K>(s: seq<T>, key: T -> K, k: K)
    requires UniqueKeys(s, key) && !FreshKey(s, key, k)
    ensures |SpliceOutKey(s, key, k)| == |s| - 1
    ensures FreshKey(SpliceOutKey(s, key, k), key, k)
    ensures UniqueKeys(SpliceOutKey(s, key, k), key)
    ensures multiset(SpliceOutKey(s, key, k)) + multiset{s[FindIndex(s, key, k)]} == multiset(s)
  {
    var i := FindIndex(s, key, k);
    var r := SpliceOutKey(s, key, k);
    TakeOutAt(s, i);
    assert forall j :: 0 <= j < |r| ==> r[j] == s[if j < i then j else j + 1];
  }

  /** Taking element `j` out leaves the rest, which with it is the whole. */
  lemma TakeOutAt<T>(s: seq<T>, j: nat)
    requires j < |s|
    ensures multiset(s[..j] + s[j + 1..]) + multiset{s[j]} == multiset(s)
    ensures s[j..j + 1] == [s[j]]
  {
    assert s == s[..j] + [s[j]] + s[j + 1..];
  }

  /** The first position of a key depends only on the keys. */
  lemma {:induction false} FindIndexSameKeys<T, K>(s: seq<T>, t: seq<T>, key: T -> K, k: K)
    requires |s| == |t|
    requires forall j :: 0 <= j < |s| ==> key(s[j]) == key(t[j])
    ensures FindIndex(s, key, k) == FindIndex(t, key, k)
  {
    if |s| > 0 && key(s[0]) != k {
      FindIndexSameKeys(s[1..], t[1..], key, k);
    }
  }

  /** Multiset bookkeeping: if `a` plus `was` is `b` plus `now`, and `was` is `now` plus `d`, then `a` plus `d` is `b`. */
  lemma MultisetSwap<T>(a: multiset<T>, b: multiset<T>, was: multiset<T>, now: multiset<T>, d: multiset<T>)
    requires a + was == b + now
    requires was == now + d
    ensures a + d == b
  {
    forall x
      ensures (a + d)[x] == b[x]
    {
      assert (a + was)[x] == (b + now)[x];
    }
  }

  /** An appended element whose key was fresh is found at the end. */
  lemma FindIndexAppended<T, K>(s: seq<T>, key: T -> K, x: T)
    requires FreshKey(s, key, key(x))
    ensures FindIndex(s + [x], key, key(x)) == |s|
  {
    var t := s + [x];
    assert forall j :: 0 <= j < |s| ==> key(t[j]) == key(s[j]);
    assert key(t[|s|]) == key(x);
  }

  /** Replacing the element keyed `k` by another keyed `k` keeps every key where it was. */
  lemma SpliceInKeySameKey<T, K>(s: seq<T>, key: T -> K, k: K, x: T)
    requires !FreshKey(s, key, k) && key(x) == k
    ensures |SpliceInKey(s, key, k, x)| == |s|
    ensures SpliceInKey(s, key, k, x)[FindIndex(s, key, k)] == x
    ensures FindIndex(SpliceInKey(s, key, k, x), key, k) == FindIndex(s, key, k)
    ensures UniqueKeys(s, key) ==> UniqueKeys(SpliceInKey(s, key, k, x), key)
  {
    var r := SpliceInKey(s, key, k, x);
    var i := FindIndex(s, key, k);
    assert forall j :: 0 <= j < |s| ==> key(r[j]) == key(s[j]) by {
      forall j | 0 <= j < |s| ensures key(r[j]) == key(s[j]) {
        if j == i { assert r[j] == x; } else { assert r[j] == s[j]; }
      }
    }
    FindIndexSameKeys(s, r, key, k);
  }

  /** No two elements share a key. */
  ghost predicate UniqueKeys<T, K>(s: seq<T>, key: T -> K) {
    forall i, j :: 0 <= i < j < |s| ==> key(s[i]) != key(s[j])
  }

  /** No key of `s` is `k`. */
  ghost predicate FreshKey<T, K>(s: seq<T>, key: T -> K, k: K) {
    forall j :: 0 <= j < |s| ==> key(s[j]) != k
  }
}

=== FILE: label_mutations.dfy ===
/**
  Labels and members on a task. Both id lists behave as sets under toggling:
  a present id is spliced out, an absent one is appended, except that a label
  is appended only while the task carries fewer than 4. `saveLabel` either
  rewrites a board label in place or, for a new label, creates it on the
  board and attaches it to the task, unless the task already has 4 labels.
 */
module LabelMutations {
  import opened JsArray
  import opened BoardTree
  import opened TaskMutations

  /** Most labels a task may carry. */
  const MaxLabels := 4

  /** The label-id part of `toggleLabel`. */
  function ToggleLabelIds(ids: seq<Id>, labelId: Id): (r: seq<Id>)
    ensures labelId in ids ==> |r| == |ids| - 1 && multiset(r) == multiset(ids) - multiset{labelId}
    ensures labelId in ids ==> var i := FindIndex(ids, Itself, labelId); r == ids[..i] + ids[i + 1..]
    ensures labelId !in ids && |ids| < MaxLabels ==> r == ids + [labelId]
    ensures labelId !in ids && MaxLabels <= |ids| ==> r == ids
    ensures |ids| <= MaxLabels ==> |r| <= MaxLabels
  {
    var i := FindIndex(ids, Itself, labelId);
    if i != -1 then
      assert ids == ids[..i] + [ids[i]] + ids[i + 1..];
      SpliceOutKey(ids, Itself, labelId)
    else if |ids| < MaxLabels then ids + [labelId]
    else ids
  }

  /** `toggleLabel`: only the located task's label ids change, by the toggle above. */
  function ToggleLabel(b: Board, groupId: Id, taskId: Id, labelId: Id): (r: Outcome<Board>)
    ensures ThrowsOnlyUnresolved(b, groupId, taskId, r)
    ensures ChangedOnlyLocated(b, groupId, taskId, r)
    ensures r.Done? ==> var t := Located(b, groupId, taskId, b);
      && Located(b, groupId, taskId, r.after).labelIds == ToggleLabelIds(t.labelIds, labelId)
      && Located(b, groupId, taskId, r.after).(labelIds := t.labelIds) == t
  {
    match LocateTask(b, groupId, taskId)
    case None => Threw(b)
    case Some(p) =>
      var t := TaskAt(b, p);
      Done(WithTask(b, p, t.(labelIds := ToggleLabelIds(t.labelIds, labelId))))
  }

  /** A task edit that keeps the edited task within the ceiling keeps the whole board within it. */
  lemma OnlyTaskDiffersKeepsCeiling(b: Board, r: Board, p: TaskPath)
    requires ValidPath(b, p) && ValidPath(r, p) && OnlyTaskDiffers(b, r, p)
    requires LabelCeiling(b) && |TaskAt(r, p).labelIds| <= MaxLabels
    ensures LabelCeiling(r)
  {
    forall i, j | 0 <= i < |r.groups| && 0 <= j < |r.groups[i].tasks|
      ensures |r.groups[i].tasks[j].labelIds| <= MaxLabels
    {
      if i != p.g || j != p.t {
        assert r.groups[i].tasks[j] == b.groups[i].tasks[j];
      }
    }
  }

  /** `toggleLabel` never takes a task past 4 labels. */
  lemma ToggleLabelKeepsCeiling(b: Board, groupId: Id, taskId: Id, labelId: Id)
    requires LabelCeiling(b)
    ensures LabelCeiling(ToggleLabel(b, groupId, taskId, labelId).after)
  {
    var r := ToggleLabel(b, groupId, taskId, labelId);
    if r.Done? {
      var p := LocateTask(b, groupId, taskId).value;
      OnlyTaskDiffersKeepsCeiling(b, r.after, p);
    }
  }

  datatype LabelToggle = LabelToggle(groupId: Id, taskId: Id, labelId: Id)

  /** A run of `toggleLabel` commits; one that throws leaves the board as it found it. */
  function ToggleAll(b: Board, ops: seq<LabelToggle>): Board
    decreases |ops|
  {
    if |ops| == 0 then b
    else ToggleAll(ToggleLabel(b, ops[0].groupId, ops[0].taskId, ops[0].labelId).after, ops[1..])
  }

  /** No sequence of label toggles takes any task past 4 labels. */
  lemma {:induction false} ToggleAllKeepsCeiling(b: Board, ops: seq<LabelToggle>)
    requires LabelCeiling(b)
    ensures LabelCeiling(ToggleAll(b, ops))
    decreases |ops|
  {
    if |ops| > 0 {
      ToggleLabelKeepsCeiling(b, ops[0].groupId, ops[0].taskId, ops[0].labelId);
      ToggleAllKeepsCeiling(ToggleLabel(b, ops[0].groupId, ops[0].taskId, ops[0].labelId).after, ops[1..]);
    }
  }

  /** Toggling a label the task lacks, with room for it, twice restores the board. */
  lemma ToggleLabelTwiceRestores(b: Board, groupId: Id, taskId: Id, labelId: Id)
    requires LocateTask(b, groupId, taskId).Some?
    requires labelId !in Located(b, groupId, taskId, b).labelIds
    requires |Located(b, groupId, taskId, b).labelIds| < MaxLabels
    ensures ToggleLabel(ToggleLabel(b, groupId, taskId, labelId).after, groupId, taskId, labelId) == Done(b)
  {
    var p := LocateTask(b, groupId, taskId).value;
    var ids := TaskAt(b, p).labelIds;
    var r := ToggleLabel(b, groupId, taskId, labelId).after;
    OnlyTaskDiffersKeepsLocate(b, r, p, groupId, taskId);
    var ids2 := ids + [labelId];
    assert FreshKey(ids, Itself, Itself(labelId));
    FindIndexAppended(ids, Itself, labelId);
    assert ToggleLabelIds(ids2, labelId) == ids;
    WithTaskRestores(b, p, TaskAt(r, p));
  }

  /**
    `saveLabel`. A label that has an id replaces the first board label with
    that id (a miss replaces the last label), whatever the task ids. A new
    label needs the task: a missing one throws; one with 4 labels already
    ends the mutation before any change; otherwise the label, under a fresh
    id, is appended to the board's labels and its id to the task's.
   */
  function SaveLabel(b: Board, groupId: Id, taskId: Id, lbl: Label, freshId: Id): (r: Outcome<Board>)
    requires freshId != "" && FreshKey(b.labels, LabelKey, freshId)
    ensures lbl.id != "" ==> r.Done? && r.after.(labels := b.labels) == b
    ensures lbl.id != "" && !FreshKey(b.labels, LabelKey, lbl.id) ==>
              r.after.labels == b.labels[FindIndex(b.labels, LabelKey, lbl.id) := lbl]
    ensures lbl.id != "" && FreshKey(b.labels, LabelKey, lbl.id) && 0 < |b.labels| ==>
              r.after.labels == b.labels[|b.labels| - 1 := lbl]
    ensures lbl.id != "" && |b.labels| == 0 ==> r.after.labels == [lbl]
    ensures lbl.id == "" ==> ThrowsOnlyUnresolved(b, groupId, taskId, r)
    ensures lbl.id == "" && r.Done? && MaxLabels <= |Located(b, groupId, taskId, b).labelIds| ==> r.after == b
    ensures lbl.id == "" && r.Done? && |Located(b, groupId, taskId, b).labelIds| < MaxLabels ==>
              var p := LocateTask(b, groupId, taskId).value;
              var t := TaskAt(b, p);
              && r.after.labels == b.labels + [lbl.(id := freshId)]
              && ValidPath(r.after, p)
              && OnlyTaskDiffers(b.(labels := r.after.labels), r.after, p)
              && TaskAt(r.after, p).labelIds == t.labelIds + [freshId]
              && TaskAt(r.after, p).(labelIds := t.labelIds) == t
  {
    if lbl.id != "" then
      Done(b.(labels := SpliceInKey(b.labels, LabelKey, lbl.id, lbl)))
    else
      match LocateTask(b, groupId, taskId)
      case None => Threw(b)
      case Some(p) =>
        var t := TaskAt(b, p);
        if MaxLabels <= |t.labelIds| then Done(b)
        else
          var b1 := b.(labels := b.labels + [lbl.(id := freshId)]);
          Done(WithTask(b1, p, t.(labelIds := t.labelIds + [freshId])))
  }

  /** `saveLabel` never takes a task past 4 labels, and a label it creates is found on the board by its id. */
  lemma SaveLabelKeepsCeiling(b: Board, groupId: Id, taskId: Id, lbl: Label, freshId: Id)
    requires freshId != "" && FreshKey(b.labels, LabelKey, freshId)
    requires LabelCeiling(b)
    ensures LabelCeiling(SaveLabel(b, groupId, taskId, lbl, freshId).after)
    ensures var r := SaveLabel(b, groupId, taskId, lbl, freshId).after;
      lbl.id == "" && |r.labels| == |b.labels| + 1 ==> FindIndex(r.labels, LabelKey, freshId) == |b.labels|
  {
    var r := SaveLabel(b, groupId, taskId, lbl, freshId);
    if lbl.id == "" && r.Done? {
      var p := LocateTask(b, groupId, taskId).value;
      if |TaskAt(b, p).labelIds| < MaxLabels {
        var b1 := b.(labels := r.after.labels);
        assert LabelCeiling(b1);
        OnlyTaskDiffersKeepsCeiling(b1, r.after, p);
        FindIndexAppended(b.labels, LabelKey, lbl.(id := freshId));
      }
    }
  }

  /** The member-id part of `toggleMember`: splice out if present, else append. */
  function ToggleMemberIds(ids: seq<Id>, memberId: Id): (r: seq<Id>)
    ensures memberId in ids ==> |r| == |ids| - 1 && multiset(r) == multiset(ids) - multiset{memberId}
    ensures memberId in ids ==> var i := FindIndex(ids, Itself, memberId); r == ids[..i] + ids[i + 1..]
    ensures memberId !in ids ==> r == ids + [memberId]
  {
    var i := FindIndex(ids, Itself, memberId);
    if i != -1 then
      assert ids == ids[..i] + [ids[i]] + ids[i + 1..];
      SpliceOutKey(ids, Itself, memberId)
    else ids + [memberId]
  }

  /**
    On a duplicate-free list the member toggle is set toggling: the member is
    in the result exactly when it was not in the input, and the result has
    no duplicates either.
   */
  lemma ToggleMemberIdsIsSetToggle(ids: seq<Id>, memberId: Id)
    requires UniqueKeys(ids, Itself)
    ensures UniqueKeys(ToggleMemberIds(ids, memberId), Itself)
    ensures memberId in ToggleMemberIds(ids, memberId) <==> memberId !in ids
  {
    var r := ToggleMemberIds(ids, memberId);
    if memberId in ids {
      SpliceOutKeyDropsKey(ids, Itself, memberId);
      assert forall j :: 0 <= j < |r| ==> r[j] != memberId;
    } else {
      assert forall j :: 0 <= j < |ids| ==> Itself(ids[j]) != memberId;
    }
  }

  /** `toggleMember`: only the located task's member ids change, by the toggle above. */
  function ToggleMember(b: Board, groupId: Id, taskId: Id, memberId: Id): (r: Outcome<Board>)
    ensures ThrowsOnlyUnresolved(b, groupId, taskId, r)
    ensures ChangedOnlyLocated(b, groupId, taskId, r)
    ensures r.Done? ==> var t := Located(b, groupId, taskId, b);
      && Located(b, groupId, taskId, r.after).memberIds == ToggleMemberIds(t.memberIds, memberId)
      && Located(b, groupId, taskId, r.after).(memberIds := t.memberIds) == t
  {
    match LocateTask(b, groupId, taskId)
    case None => Threw(b)
    case Some(p) =>
      var t := TaskAt(b, p);
      Done(WithTask(b, p, t.(memberIds := ToggleMemberIds(t.memberIds, memberId))))
  }

  /** Toggling a member the task lacks twice restores the board. */
  lemma ToggleMemberTwiceRestores(b: Board, groupId: Id, taskId: Id, memberId: Id)
    requires LocateTask(b, groupId, taskId).Some?
    requires memberId !in Located(b, groupId, taskId, b).memberIds
    ensures ToggleMember(ToggleMember(b, groupId, taskId, memberId).after, groupId, taskId, memberId) == Done(b)
  {
    var p := LocateTask(b, groupId, taskId).value;
    var ids := TaskAt(b, p).memberIds;
    var r := ToggleMember(b, groupId, taskId, memberId).after;
    OnlyTaskDiffersKeepsLocate(b, r, p, groupId, taskId);
    var ids2 := ids + [memberId];
    assert FreshKey(ids, Itself, Itself(memberId));
    FindIndexAppended(ids, Itself, memberId);
    assert ToggleMemberIds(ids2, memberId) == ids;
    WithTaskRestores(b, p, TaskAt(r, p));
  }
}

=== FILE: save_actions.dfy ===
/**
  The `board`, `group` and `task` actions decide which change to commit
  before calling persistence: `save` becomes update when the entity
  already has an id and add when it has none; `remove` becomes remove;
  `set` (boards only) becomes set; any other action leaves the change
  undefined, which no mutation case matches. The entity committed is the
  one persistence hands back, a parameter here.
 */
module SaveActions {
  import opened JsArray
  import opened BoardTree
  import opened GroupMutations
  import opened TaskMutations
  import opened StoreMutations

  /** The change a save commits: an entity with an id is updated, one without is added. */
  function SaveChange(id: Id): (c: Change)
    ensures c == Update <==> id != ""
    ensures c == Add <==> id == ""
  {
    if id != "" then Update else Add
  }

  /** The change an action name selects; `set` is only known to the board action. */
  function ActionChange(action: string, id: Id, canSet: bool): (c: Change)
    ensures action == "save" ==> c == SaveChange(id)
    ensures action == "remove" ==> c == Remove
    ensures c == Set <==> canSet && action == "set"
    ensures c == NoChange <==> action != "save" && action != "remove" && !(canSet && action == "set")
  {
    if action == "save" then SaveChange(id)
    else if action == "remove" then Remove
    else if canSet && action == "set" then Set
    else NoChange
  }

  /**
    Saving a board without an id appends what persistence returned and
    makes it current; saving a board whose id is listed replaces it in
    place. Either way board ids stay unique, given that persistence hands
    back a new id on create and the same id on update.
   */
  lemma SaveBoardDelta(s: State, board: Board, saved: Board)
    requires UniqueKeys(s.boards, BoardKey)
    requires board.id == "" ==> FreshKey(s.boards, BoardKey, saved.id)
    requires board.id != "" ==> saved.id == board.id && !FreshKey(s.boards, BoardKey, board.id)
    ensures var r := BoardChange(s, SaveChange(board.id), saved);
      && UniqueKeys(r.boards, BoardKey)
      && (board.id == "" ==> |r.boards| == |s.boards| + 1 && r.boards[|s.boards|] == saved && r.currBoard == Some(saved))
      && (board.id != "" ==> |r.boards| == |s.boards| && r.currBoard == s.currBoard
                             && r.boards[FindIndex(s.boards, BoardKey, board.id)] == saved)
  {
    if board.id != "" {
      SpliceInKeySameKey(s.boards, BoardKey, board.id, saved);
    }
  }

  /** Removing a listed board, with ids unique, drops that board only. */
  lemma RemoveBoardDelta(s: State, board: Board)
    requires UniqueKeys(s.boards, BoardKey) && !FreshKey(s.boards, BoardKey, board.id)
    ensures var r := BoardChange(s, ActionChange("remove", board.id, true), board);
      && |r.boards| == |s.boards| - 1
      && FreshKey(r.boards, BoardKey, board.id)
      && UniqueKeys(r.boards, BoardKey)
      && r.currBoard == s.currBoard
  {
    SpliceOutKeyDropsKey(s.boards, BoardKey, board.id);
  }

  /**
    Saving a group without an id appends what persistence returned; saving
    a group whose id is on the board replaces it in place. Group ids stay
    unique.
   */
  lemma SaveGroupDelta(b: Board, group: Group, saved: Group)
    requires UniqueKeys(b.groups, GroupKey)
    requires group.id == "" ==> FreshKey(b.groups, GroupKey, saved.id)
    requires group.id != "" ==> saved.id == group.id && !FreshKey(b.groups, GroupKey, group.id)
    ensures var r := GroupChange(b, SaveChange(group.id), saved);
      && UniqueKeys(r.groups, GroupKey)
      && (group.id == "" ==> |r.groups| == |b.groups| + 1 && r.groups[|b.groups|] == saved)
      && (group.id != "" ==> |r.groups| == |b.groups| && r.groups[FindIndex(b.groups, GroupKey, group.id)] == saved)
  {
    if group.id != "" {
      SpliceInKeySameKey(b.groups, GroupKey, group.id, saved);
    }
  }

  /** Removing a group on the board, with ids unique, drops that group only. */
  lemma RemoveGroupDelta(b: Board, group: Group)
    requires UniqueKeys(b.groups, GroupKey) && !FreshKey(b.groups, GroupKey, group.id)
    ensures var r := GroupChange(b, ActionChange("remove", group.id, false), group);
      && |r.groups| == |b.groups| - 1
      && FreshKey(r.groups, GroupKey, group.id)
      && UniqueKeys(r.groups, GroupKey)
  {
    SpliceOutKeyDropsKey(b.groups, GroupKey, group.id);
  }

  /** The tasks of the group found by id on the current board, after a `task` commit. */
  function GroupTasksAfter(r: State, g: nat): seq<Task>
    requires r.currBoard.Some? && g < |r.currBoard.value.groups|
  {
    r.currBoard.value.groups[g].tasks
  }

  /**
    Saving a task without an id appends what persistence returned to its
    group; saving a task whose id is in the group replaces it in place and
    focuses it, or throws after the replacement when no task is focused.
    Task ids in the group stay unique.
   */
  lemma SaveTaskDelta(s: State, groupId: Id, task: Task, saved: Task)
    requires s.currBoard.Some? && !FreshKey(s.currBoard.value.groups, GroupKey, groupId)
    requires var ts := s.currBoard.value.groups[FindIndex(s.currBoard.value.groups, GroupKey, groupId)].tasks;
      && UniqueKeys(ts, TaskKey)
      && (task.id == "" ==> FreshKey(ts, TaskKey, saved.id))
      && (task.id != "" ==> saved.id == task.id && !FreshKey(ts, TaskKey, task.id))
    ensures var g := FindIndex(s.currBoard.value.groups, GroupKey, groupId);
      var ts := s.currBoard.value.groups[g].tasks;
      var r := TaskChange(s, SaveChange(task.id), groupId, saved);
      && r.after.currBoard.Some? && |r.after.currBoard.value.groups| == |s.currBoard.value.groups|
      && OnlyGroupDiffers(s.currBoard.value, r.after.currBoard.value, g)
      && UniqueKeys(GroupTasksAfter(r.after, g), TaskKey)
      && (task.id == "" ==> r.Done? && GroupTasksAfter(r.after, g) == ts + [saved])
      && (task.id != "" ==> |GroupTasksAfter(r.after, g)| == |ts|
                            && GroupTasksAfter(r.after, g)[FindIndex(ts, TaskKey, task.id)] == saved
                            && (r.Done? <==> s.currTaskData.Some?)
                            && (r.Done? ==> r.after.currTaskData.value.task == Some(saved)))
  {
    var b := s.currBoard.value;
    var g := FindIndex(b.groups, GroupKey, groupId);
    var ts := b.groups[g].tasks;
    if task.id != "" {
      SpliceInKeySameKey(ts, TaskKey, task.id, saved);
    }
  }

  /** Removing a task in the group, with ids unique, drops that task only and leaves the focus alone. */
  lemma RemoveTaskDelta(s: State, groupId: Id, task: Task)
    requires s.currBoard.Some? && !FreshKey(s.currBoard.value.groups, GroupKey, groupId)
    requires var ts := s.currBoard.value.groups[FindIndex(s.currBoard.value.groups, GroupKey, groupId)].tasks;
      UniqueKeys(ts, TaskKey) && !FreshKey(ts, TaskKey, task.id)
    ensures var g := FindIndex(s.currBoard.value.groups, GroupKey, groupId);
      var ts := s.currBoard.value.groups[g].tasks;
      var r := TaskChange(s, ActionChange("remove", task.id, false), groupId, task);
      && r.Done?
      && r.after.currTaskData == s.currTaskData
      && r.after.currBoard.Some? && |r.after.currBoard.value.groups| == |s.currBoard.value.groups|
      && OnlyGroupDiffers(s.currBoard.value, r.after.currBoard.value, g)
      && |GroupTasksAfter(r.after, g)| == |ts| - 1
      && FreshKey(GroupTasksAfter(r.after, g), TaskKey, task.id)
  {
    var b := s.currBoard.value;
    SpliceOutKeyDropsKey(b.groups[FindIndex(b.groups, GroupKey, groupId)].tasks, TaskKey, task.id);
  }
}

=== FILE: store_mutations.dfy ===
/**
  The store-level mutations and the getters: the one-slot snapshot and its
  undo, replacing the board list or the current board, focusing a task, the
  `board` add/update/remove/set mutation, the board flags and background,
  the drag-and-drop group replacement, and clearing the current board.
  Board-tree mutations of the other modules run on `currBoard` through
  `BoardTree.OnCurrBoard`, which throws when there is no current board.
 */
module StoreMutations {
  import opened JsArray
  import opened BoardTree

  /** `undo`: the current board becomes the saved snapshot; nothing else changes. */
  function Undo(s: State): (r: State)
    ensures r.currBoard == s.previousBoardState
    ensures r.(currBoard := s.currBoard) == s
  {
    s.(currBoard := s.previousBoardState)
  }

  /** `savePrevState`: the snapshot slot is overwritten with the current board. */
  function SavePrevState(s: State): (r: State)
    ensures r.previousBoardState == s.currBoard
    ensures r.(previousBoardState := s.previousBoardState) == s
  {
    s.(previousBoardState := s.currBoard)
  }

  /** Undo right after a snapshot leaves the current board as it is; only the slot has been filled. */
  lemma UndoAfterSnapshot(s: State)
    ensures Undo(SavePrevState(s)) == s.(previousBoardState := s.currBoard)
  {
  }

  /** There is one snapshot slot: a second snapshot overwrites the first, so undo only reaches the latest. */
  lemma SnapshotIsOneSlot(s: State, b: Board)
    ensures Undo(SavePrevState(SavePrevState(s).(currBoard := Some(b)))).currBoard == Some(b)
  {
  }

  /** `setBoards`: the board list is replaced wholesale. */
  function SetBoards(s: State, boards: seq<Board>): (r: State)
    ensures r.boards == boards
    ensures r.(boards := s.boards) == s
  {
    s.(boards := boards)
  }

  /** `updateBoard`: the current board is replaced wholesale. */
  function UpdateBoard(s: State, updatedBoard: Board): (r: State)
    ensures r.currBoard == Some(updatedBoard)
    ensures r.(currBoard := s.currBoard) == s
  {
    s.(currBoard := Some(updatedBoard))
  }

  /** The board list the getters split is the one `setBoards` put there: each board lands in exactly one of them. */
  lemma SetBoardsSplitByGetters(s: State, boards: seq<Board>)
    ensures multiset(TemplateBoards(SetBoards(s, boards))) + multiset(Boards(SetBoards(s, boards))) == multiset(boards)
  {
    GettersPartitionBoards(boards);
  }

  /**
    `updateBoard` and the `board` set change replace the current board
    rather than edit it, so the board a snapshot took is untouched by them,
    and undo brings it back.
   */
  lemma UndoRevertsReplacement(s: State, board: Board)
    ensures Undo(UpdateBoard(SavePrevState(s), board)) == SavePrevState(s)
    ensures Undo(BoardChange(SavePrevState(s), Set, board)) == SavePrevState(s)
  {
  }

  /**
    `setCurrTask`: focuses the group found by id and the task found by id in
    it. A missing current board or group throws; a missing task leaves the
    task part undefined without throwing.
   */
  function SetCurrTask(s: State, groupId: Id, taskId: Id): (r: Outcome<State>)
    ensures r.Threw? <==> s.currBoard.None? || FreshKey(s.currBoard.value.groups, GroupKey, groupId)
    ensures r.Threw? ==> r.after == s
    ensures r.after.(currTaskData := s.currTaskData) == s
    ensures r.Done? ==>
      var b := s.currBoard.value;
      var d := r.after.currTaskData;
      && d.Some?
      && d.value.group == b.groups[FindIndex(b.groups, GroupKey, groupId)]
      && (d.value.task.Some? <==> LocateTask(b, groupId, taskId).Some?)
      && (d.value.task.Some? ==> d.value.task.value == TaskAt(b, LocateTask(b, groupId, taskId).value))
  {
    if s.currBoard.None? then Threw(s)
    else
      match Find(s.currBoard.value.groups, GroupKey, groupId)
      case None => Threw(s)
      case Some(group) => Done(s.(currTaskData := Some(TaskData(group, Find(group.tasks, TaskKey, taskId)))))
  }

  /** Focusing a task the lookup resolves makes the focused task the one a later edit would locate. */
  lemma SetCurrTaskFocusesLocated(s: State, groupId: Id, taskId: Id)
    requires s.currBoard.Some? && LocateTask(s.currBoard.value, groupId, taskId).Some?
    ensures var r := SetCurrTask(s, groupId, taskId);
      && r.Done?
      && r.after.currTaskData.value.task.Some?
      && r.after.currTaskData.value.task.value.id == taskId
      && r.after.currTaskData.value.group.id == groupId
  {
  }

  /**
    `board`: add appends the board and makes it current; update replaces the
    board with the same id (a miss replaces the last board); remove splices
    out the board with the id (a miss drops the last board); set makes the
    board current; any other change does nothing.
   */
  function BoardChange(s: State, change: Change, board: Board): (r: State)
    ensures r.(boards := s.boards, currBoard := s.currBoard) == s
    ensures change == Add ==> r.boards == s.boards + [board] && r.currBoard == Some(board)
    ensures change == Update ==> r.currBoard == s.currBoard
    ensures change == Update && !FreshKey(s.boards, BoardKey, board.id) ==>
              r.boards == s.boards[FindIndex(s.boards, BoardKey, board.id) := board]
    ensures change == Update && FreshKey(s.boards, BoardKey, board.id) && 0 < |s.boards| ==>
              r.boards == s.boards[|s.boards| - 1 := board]
    ensures change == Update && |s.boards| == 0 ==> r.boards == [board]
    ensures change == Remove ==> r.currBoard == s.currBoard
    ensures change == Remove && !FreshKey(s.boards, BoardKey, board.id) ==>
              |r.boards| == |s.boards| - 1
              && r.boards == s.boards[..FindIndex(s.boards, BoardKey, board.id)] + s.boards[FindIndex(s.boards, BoardKey, board.id) + 1..]
    ensures change == Remove && FreshKey(s.boards, BoardKey, board.id) ==>
              r.boards == if |s.boards| == 0 then [] else s.boards[..|s.boards| - 1]
    ensures change == Set ==> r.boards == s.boards && r.currBoard == Some(board)
    ensures change == NoChange ==> r == s
  {
    match change
    case Add => s.(boards := s.boards + [board], currBoard := Some(board))
    case Update => s.(boards := SpliceInKey(s.boards, BoardKey, board.id, board))
    case Remove => s.(boards := SpliceOutKey(s.boards, BoardKey, board.id))
    case Set => s.(currBoard := Some(board))
    case NoChange => s
  }

  /** `changeBoardTitle`: only the current board's title changes. */
  function ChangeBoardTitle(s: State, title: string): (r: Outcome<State>)
    ensures r.Threw? <==> s.currBoard.None?
    ensures r.Threw? ==> r.after == s
    ensures r.Done? ==> r.after.currBoard == Some(s.currBoard.value.(title := title))
    ensures r.after.(currBoard := s.currBoard) == s
  {
    OnCurrBoard(s, (b: Board) => Done(b.(title := title)))
  }

  /** Setting the title back to the old one undoes a title change. */
  lemma ChangeBoardTitleRoundTrip(s: State, title: string)
    requires s.currBoard.Some?
    ensures ChangeBoardTitle(ChangeBoardTitle(s, title).after, s.currBoard.value.title) == Done(s)
  {
  }

  /**
    `clearCurrBoard`: the current board becomes null. The focused task is
    left as it was: nothing here invalidates it.
   */
  function ClearCurrBoard(s: State): (r: State)
    ensures r.currBoard.None?
    ensures r.currTaskData == s.currTaskData
    ensures r.(currBoard := s.currBoard) == s
  {
    s.(currBoard := None)
  }

  /** With the current board cleared, every board mutation and every task focus throws and changes nothing. */
  lemma ClearedBoardRejectsMutations(s: State, f: Board -> Outcome<Board>, groupId: Id, taskId: Id)
    ensures OnCurrBoard(ClearCurrBoard(s), f) == Threw(ClearCurrBoard(s))
    ensures SetCurrTask(ClearCurrBoard(s), groupId, taskId) == Threw(ClearCurrBoard(s))
  {
  }

  /**
    `dragTask`: the group at `groupIndex` of the given board is replaced by
    the rearranged group (JS `splice` clamps the index), and that board
    becomes current.
   */
  function DragTask(s: State, groupIndex: int, board: Board, newGroup: Group): (r: State)
    ensures r.(currBoard := s.currBoard) == s
    ensures r.currBoard.Some? && r.currBoard.value.(groups := board.groups) == board
    ensures 0 <= groupIndex < |board.groups| ==> r.currBoard.value.groups == board.groups[groupIndex := newGroup]
    ensures |board.groups| <= groupIndex ==> r.currBoard.value.groups == board.groups + [newGroup]
  {
    s.(currBoard := Some(board.(groups := Splice(board.groups, groupIndex, 1, [newGroup]))))
  }

  /** A drag that only reorders the dragged group's tasks keeps every task of the board. */
  lemma DragTaskKeepsTasks(s: State, groupIndex: int, board: Board, newGroup: Group)
    requires 0 <= groupIndex < |board.groups|
    requires multiset(newGroup.tasks) == multiset(board.groups[groupIndex].tasks)
    ensures multiset(AllTasks(DragTask(s, groupIndex, board, newGroup).currBoard.value.groups))
            == multiset(AllTasks(board.groups))
  {
    AllTasksWithGroup(board.groups, groupIndex, newGroup);
    MultisetSwap(multiset(AllTasks(board.groups[groupIndex := newGroup])), multiset(AllTasks(board.groups)),
                 multiset(board.groups[groupIndex].tasks), multiset(newGroup.tasks), multiset{});
  }

  /** A board with its star flipped (`!undefined` is true). */
  function ToggleStarred(b: Board): (r: Board)
    ensures r.isStarred != b.isStarred
    ensures r.(isStarred := b.isStarred) == b
  {
    b.(isStarred := !b.isStarred)
  }

  /** Starring is an involution. */
  lemma ToggleStarredTwice(b: Board)
    ensures ToggleStarred(ToggleStarred(b)) == b
  {
  }

  /**
    `toggleBoardStarred`: flips the star of the board passed in, or of the
    current board when none is. A passed board is the caller's object; the
    state record itself is then left as it is.
   */
  function ToggleBoardStarred(s: State, board: Option<Board>): (r: Outcome<State>)
    ensures board.Some? ==> r == Done(s)
    ensures board.None? ==> (r.Threw? <==> s.currBoard.None?)
    ensures board.None? && r.Done? ==> r.after.currBoard == Some(ToggleStarred(s.currBoard.value))
    ensures r.after.(currBoard := s.currBoard) == s
  {
    if board.Some? then Done(s)
    else OnCurrBoard(s, (b: Board) => Done(ToggleStarred(b)))
  }

  /** With no board passed, starring twice restores the state. */
  lemma ToggleBoardStarredTwice(s: State)
    ensures ToggleBoardStarred(ToggleBoardStarred(s, None).after, None).after == s
  {
  }

  /** `toggleLabelsText`: flips whether label titles show on the current board. */
  function ToggleLabelsText(s: State): (r: Outcome<State>)
    ensures r.Threw? <==> s.currBoard.None?
    ensures r.Threw? ==> r.after == s
    ensures r.Done? ==> var b := s.currBoard.value;
      && r.after.currBoard.Some?
      && r.after.currBoard.value.isLabelsTextShow != b.isLabelsTextShow
      && r.after.currBoard.value.(isLabelsTextShow := b.isLabelsTextShow) == b
    ensures r.after.(currBoard := s.currBoard) == s
  {
    OnCurrBoard(s, (b: Board) => Done(b.(isLabelsTextShow := !b.isLabelsTextShow)))
  }

  /** Showing label text is an involution on the whole state. */
  lemma ToggleLabelsTextTwice(s: State)
    ensures ToggleLabelsText(ToggleLabelsText(s).after).after == s
  {
  }

  /** `setBg`: sets the current board's background; a board without a style object throws. */
  function SetBg(s: State, background: string): (r: Outcome<State>)
    ensures r.Threw? <==> s.currBoard.None? || s.currBoard.value.style.None?
    ensures r.Threw? ==> r.after == s
    ensures r.Done? ==> r.after.currBoard == Some(s.currBoard.value.(style := Some(Style(background))))
    ensures r.after.(currBoard := s.currBoard) == s
  {
    OnCurrBoard(s, (b: Board) => if b.style.None? then Threw(b) else Done(b.(style := Some(b.style.value.(background := background)))))
  }

  /** Setting the old background back undoes a background change. */
  lemma SetBgRoundTrip(s: State, background: string)
    requires s.currBoard.Some? && s.currBoard.value.style.Some?
    ensures SetBg(SetBg(s, background).after, s.currBoard.value.style.value.background) == Done(s)
  {
  }

  /** The boards whose template flag is `want`, in their original order. */
  function WithTemplateFlag(boards: seq<Board>, want: bool): (r: seq<Board>)
    ensures |r| <= |boards|
    ensures forall i :: 0 <= i < |r| ==> r[i].isTemplate == want
    ensures forall x {:trigger x in r} :: x in r <==> x in boards && x.isTemplate == want
  {
    if |boards| == 0 then []
    else if boards[0].isTemplate == want then [boards[0]] + WithTemplateFlag(boards[1..], want)
    else WithTemplateFlag(boards[1..], want)
  }

  /** Filtering a list with a board in front: the front board is kept exactly when its flag matches. */
  lemma WithTemplateFlagCons(h: Board, t: seq<Board>, want: bool)
    ensures WithTemplateFlag([h] + t, want) == (if h.isTemplate == want then [h] else []) + WithTemplateFlag(t, want)
  {
    assert ([h] + t)[0] == h && ([h] + t)[1..] == t;
  }

  /** Filtering a concatenation filters each part and keeps them in order. */
  lemma {:induction false} WithTemplateFlagAppend(a: seq<Board>, c: seq<Board>, want: bool)
    ensures WithTemplateFlag(a + c, want) == WithTemplateFlag(a, want) + WithTemplateFlag(c, want)
  {
    if |a| == 0 {
      assert a + c == c;
    } else {
      var h, t := a[0], a[1..];
      assert a == [h] + t && a + c == [h] + (t + c);
      WithTemplateFlagAppend(t, c, want);
      WithTemplateFlagCons(h, t + c, want);
      WithTemplateFlagCons(h, t, want);
      var front := if h.isTemplate == want then [h] else [];
      assert front + (WithTemplateFlag(t, want) + WithTemplateFlag(c, want))
          == (front + WithTemplateFlag(t, want)) + WithTemplateFlag(c, want);
    }
  }

  /** Each board with the flag is kept as often as it occurs, and no other board at all. */
  lemma {:induction false} WithTemplateFlagCounts(boards: seq<Board>, want: bool, x: Board)
    ensures multiset(WithTemplateFlag(boards, want))[x] == if x.isTemplate == want then multiset(boards)[x] else 0
  {
    if |boards| > 0 {
      WithTemplateFlagCounts(boards[1..], want, x);
      assert boards == [boards[0]] + boards[1..];
    }
  }

  /** A single board is kept exactly when its flag is `want`. */
  lemma WithTemplateFlagOne(x: Board, want: bool)
    ensures WithTemplateFlag([x], want) == if x.isTemplate == want then [x] else []
  {
  }

  /**
    The `templateBoards` getter: as written it keeps the boards that are NOT
    templates (the name and the filter disagree).
   */
  function TemplateBoards(s: State): (r: seq<Board>)
    ensures forall x :: x in r <==> x in s.boards && !x.isTemplate
    ensures r == WithTemplateFlag(s.boards, false)
  {
    WithTemplateFlag(s.boards, false)
  }

  /** The `boards` getter: as written it keeps the template boards. */
  function Boards(s: State): (r: seq<Board>)
    ensures forall x :: x in r <==> x in s.boards && x.isTemplate
    ensures r == WithTemplateFlag(s.boards, true)
  {
    WithTemplateFlag(s.boards, true)
  }

  /** The two getters split the board list: every board lands in exactly one, none is lost or repeated. */
  lemma {:induction false} GettersPartitionBoards(boards: seq<Board>)
    ensures multiset(WithTemplateFlag(boards, false)) + multiset(WithTemplateFlag(boards, true)) == multiset(boards)
    ensures |WithTemplateFlag(boards, false)| + |WithTemplateFlag(boards, true)| == |boards|
  {
    if |boards| > 0 {
      GettersPartitionBoards(boards[1..]);
      assert boards == [boards[0]] + boards[1..];
    }
  }

  /**
    The `boardMembers`, `boardLabels` and `groups` getters: the current
    board's lists; with no current board reading them throws, shown as None.
   */
  function BoardMembers(s: State): (r: Option<seq<Member>>)
    ensures r.None? <==> s.currBoard.None?
    ensures r.Some? ==> r.value == s.currBoard.value.members
  {
    if s.currBoard.None? then None else Some(s.currBoard.value.members)
  }

  function BoardLabels(s: State): (r: Option<seq<Label>>)
    ensures r.None? <==> s.currBoard.None?
    ensures r.Some? ==> r.value == s.currBoard.value.labels
  {
    if s.currBoard.None? then None else Some(s.currBoard.value.labels)
  }

  function Groups(s: State): (r: Option<seq<Group>>)
    ensures r.None? <==> s.currBoard.None?
    ensures r.Some? ==> r.value == s.currBoard.value.groups
  {
    if s.currBoard.None? then None else Some(s.currBoard.value.groups)
  }

  /** Every getter over the current board sees the board a board mutation left behind, and only that. */
  lemma GettersFollowCurrBoard(s: State, f: Board -> Outcome<Board>)
    requires s.currBoard.Some?
    ensures var r := OnCurrBoard(s, f).after;
      var b := f(s.currBoard.value).after;
      && Groups(r) == Some(b.groups)
      && BoardLabels(r) == Some(b.labels)
      && BoardMembers(r) == Some(b.members)
      && Boards(r) == Boards(s)
      && TemplateBoards(r) == TemplateBoards(s)
  {
  }
}

=== FILE: task_move.dfy ===
/**
  `moveTask`: the cross-group task move. The task is spliced out of its
  origin group first and only then is the destination group looked up, so a
  destination id that does not resolve throws with the task already gone.
  `MoveTaskChecked` is the same move with both groups resolved before any
  change, which makes the mutation all-or-nothing.
 */
module TaskMove {
  import opened JsArray
  import opened BoardTree

  /**
    The origin group, when it resolves, has a task to extract. On an empty
    origin group the source splices nothing out and inserts `undefined` into
    the destination, which a list of tasks cannot hold.
   */
  ghost predicate OriginHasTask(b: Board, fromGroupId: Id) {
    var o := FindIndex(b.groups, GroupKey, fromGroupId);
    0 <= o ==> 0 < |b.groups[o].tasks|
  }

  /** The task the move carries: the single element the origin splice takes out at the task's index. */
  function Extracted(ts: seq<Task>, taskId: Id): (t: Task)
    requires 0 < |ts|
    ensures !FreshKey(ts, TaskKey, taskId) ==> t.id == taskId && t == ts[FindIndex(ts, TaskKey, taskId)]
    ensures FreshKey(ts, TaskKey, taskId) ==> t == ts[|ts| - 1]
    ensures multiset(SpliceOutKey(ts, TaskKey, taskId)) + multiset{t} == multiset(ts)
    ensures [t] == Removed(ts, FindIndex(ts, TaskKey, taskId), 1)
  {
    var i := FindIndex(ts, TaskKey, taskId);
    var j := if 0 <= i then i else |ts| - 1;
    assert SpliceStart(|ts|, i) == j && SpliceCount(|ts|, i, 1) == 1;
    assert Removed(ts, i, 1) == ts[j..j + 1];
    assert SpliceOutKey(ts, TaskKey, taskId) == ts[..j] + ts[j + 1..];
    TakeOutAt(ts, j);
    ts[j]
  }

  /** The board right after the origin splice, before the destination lookup. */
  function WithoutMoved(b: Board, o: nat, taskId: Id): (r: Board)
    requires o < |b.groups|
    ensures OnlyGroupDiffers(b, r, o)
    ensures r.groups[o] == b.groups[o].(tasks := SpliceOutKey(b.groups[o].tasks, TaskKey, taskId))
  {
    WithGroup(b, o, b.groups[o].(tasks := SpliceOutKey(b.groups[o].tasks, TaskKey, taskId)))
  }

  /** `moveTask` as written. */
  function MoveTask(b: Board, fromGroupId: Id, fromTaskId: Id, toGroupId: Id, toIdx: int): (r: Outcome<Board>)
    requires OriginHasTask(b, fromGroupId)
    ensures FreshKey(b.groups, GroupKey, fromGroupId) ==> r == Threw(b)
    ensures r.Threw? && !FreshKey(b.groups, GroupKey, fromGroupId) ==>
              r.after == WithoutMoved(b, FindIndex(b.groups, GroupKey, fromGroupId), fromTaskId)
    ensures r.Done? <==> !FreshKey(b.groups, GroupKey, fromGroupId) && !FreshKey(b.groups, GroupKey, toGroupId)
    ensures r.after.(groups := b.groups) == b
    ensures r.Done? ==>
      var o := FindIndex(b.groups, GroupKey, fromGroupId);
      var d := FindIndex(b.groups, GroupKey, toGroupId);
      var g1 := WithoutMoved(b, o, fromTaskId).groups[o];
      var dest := b.groups[o := g1][d];
      r.after.groups == b.groups[o := g1][d := dest.(tasks := Splice(dest.tasks, toIdx, 0, [Extracted(b.groups[o].tasks, fromTaskId)]))]
  {
    var o := FindIndex(b.groups, GroupKey, fromGroupId);
    if o < 0 then Threw(b)
    else
      var moved := Extracted(b.groups[o].tasks, fromTaskId);
      var b1 := WithoutMoved(b, o, fromTaskId);
      assert forall j :: 0 <= j < |b.groups| ==> b1.groups[j].id == b.groups[j].id;
      FindIndexSameKeys(b.groups, b1.groups, GroupKey, toGroupId);
      var d := FindIndex(b1.groups, GroupKey, toGroupId);
      assert b1.groups == b.groups[o := b1.groups[o]];
      if d < 0 then Threw(b1)
      else
        var dest := b1.groups[d];
        Done(WithGroup(b1, d, dest.(tasks := Splice(dest.tasks, toIdx, 0, [moved]))))
  }

  /** A completed move neither loses nor duplicates a task: the board's task multiset is unchanged. */
  lemma MoveTaskConservesTasks(b: Board, fromGroupId: Id, fromTaskId: Id, toGroupId: Id, toIdx: int)
    requires OriginHasTask(b, fromGroupId)
    requires MoveTask(b, fromGroupId, fromTaskId, toGroupId, toIdx).Done?
    ensures multiset(AllTasks(MoveTask(b, fromGroupId, fromTaskId, toGroupId, toIdx).after.groups))
            == multiset(AllTasks(b.groups))
  {
    var o := FindIndex(b.groups, GroupKey, fromGroupId);
    var d := FindIndex(b.groups, GroupKey, toGroupId);
    var g1 := WithoutMoved(b, o, fromTaskId).groups[o];
    var moved := Extracted(b.groups[o].tasks, fromTaskId);
    var dest := b.groups[o := g1][d];
    SpliceInsertAdds(dest.tasks, toIdx, moved);
    TakeThenPutKeepsTasks(b.groups, o, d, g1, dest.(tasks := Splice(dest.tasks, toIdx, 0, [moved])), moved);
  }

  /** Taking one task out of group `o` and putting it into group `d` keeps the board's tasks. */
  lemma TakeThenPutKeepsTasks(gs: seq<Group>, o: nat, d: nat, g1: Group, g2: Group, moved: Task)
    requires o < |gs| && d < |gs|
    requires multiset(g1.tasks) + multiset{moved} == multiset(gs[o].tasks)
    requires multiset(g2.tasks) == multiset(gs[o := g1][d].tasks) + multiset{moved}
    ensures multiset(AllTasks(gs[o := g1][d := g2])) == multiset(AllTasks(gs))
  {
    var hs := gs[o := g1];
    assert multiset(g1.tasks) + multiset{moved} == multiset(gs[o].tasks) + multiset{};
    AllTasksReplaceGroup(gs, o, g1, multiset{moved}, multiset{});
    assert multiset(g2.tasks) + multiset{} == multiset(hs[d].tasks) + multiset{moved};
    AllTasksReplaceGroup(hs, d, g2, multiset{}, multiset{moved});
    assert multiset(AllTasks(hs)) + multiset{moved} == multiset(AllTasks(gs));
    assert multiset(AllTasks(hs[d := g2])) == multiset(AllTasks(hs)) + multiset{moved};
  }

  /**
    A completed move of a task that is present puts that very task at `toIdx`
    of the destination group when the index is within the destination as it
    stands after the removal; groups other than origin and destination, and
    every field other than the task lists, are untouched.
   */
  lemma MoveTaskPlacesTask(b: Board, fromGroupId: Id, fromTaskId: Id, toGroupId: Id, toIdx: int)
    requires OriginHasTask(b, fromGroupId)
    requires MoveTask(b, fromGroupId, fromTaskId, toGroupId, toIdx).Done?
    requires LocateTask(b, fromGroupId, fromTaskId).Some?
    ensures var r := MoveTask(b, fromGroupId, fromTaskId, toGroupId, toIdx).after;
      var o := FindIndex(b.groups, GroupKey, fromGroupId);
      var d := FindIndex(b.groups, GroupKey, toGroupId);
      var room := |b.groups[d].tasks| - (if d == o then 1 else 0);
      && r.(groups := b.groups) == b
      && |r.groups| == |b.groups|
      && (forall j :: 0 <= j < |b.groups| && j != o && j != d ==> r.groups[j] == b.groups[j])
      && (forall j :: 0 <= j < |b.groups| ==> r.groups[j].(tasks := b.groups[j].tasks) == b.groups[j])
      && |r.groups[d].tasks| == room + 1
      && (0 <= toIdx <= room ==> r.groups[d].tasks[toIdx] == TaskAt(b, LocateTask(b, fromGroupId, fromTaskId).value))
  {
    var r := MoveTask(b, fromGroupId, fromTaskId, toGroupId, toIdx).after;
    var o := FindIndex(b.groups, GroupKey, fromGroupId);
    var d := FindIndex(b.groups, GroupKey, toGroupId);
    var g1 := WithoutMoved(b, o, fromTaskId).groups[o];
    var moved := Extracted(b.groups[o].tasks, fromTaskId);
    var dest := b.groups[o := g1][d];
    var g2 := dest.(tasks := Splice(dest.tasks, toIdx, 0, [moved]));
    assert r.groups == b.groups[o := g1][d := g2];
    assert g2.(tasks := b.groups[d].tasks) == b.groups[d];
    TaskListsOnlyDiffer(b, r, o, d, g1, g2);
    assert |g1.tasks| == |b.groups[o].tasks| - 1;
    assert moved == TaskAt(b, LocateTask(b, fromGroupId, fromTaskId).value);
    if 0 <= toIdx <= |dest.tasks| {
      SpliceInsertAt(dest.tasks, toIdx, moved);
    }
  }

  /** Replacing the task lists of groups `o` and `d` leaves every other group, and every other field, as it was. */
  lemma TaskListsOnlyDiffer(b: Board, r: Board, o: nat, d: nat, g1: Group, g2: Group)
    requires o < |b.groups| && d < |b.groups|
    requires r == b.(groups := b.groups[o := g1][d := g2])
    requires g1.(tasks := b.groups[o].tasks) == b.groups[o]
    requires g2.(tasks := b.groups[d].tasks) == b.groups[d]
    ensures r.(groups := b.groups) == b
    ensures |r.groups| == |b.groups|
    ensures forall j :: 0 <= j < |b.groups| && j != o && j != d ==> r.groups[j] == b.groups[j]
    ensures forall j :: 0 <= j < |b.groups| ==> r.groups[j].(tasks := b.groups[j].tasks) == b.groups[j]
  {
  }

  /**
    As written, a destination id that does not resolve throws after the
    origin splice: the board is left one task short.
   */
  lemma MoveTaskLosesTaskOnMissingDestination(b: Board, fromGroupId: Id, fromTaskId: Id, toGroupId: Id, toIdx: int)
    requires OriginHasTask(b, fromGroupId)
    requires !FreshKey(b.groups, GroupKey, fromGroupId) && FreshKey(b.groups, GroupKey, toGroupId)
    ensures MoveTask(b, fromGroupId, fromTaskId, toGroupId, toIdx).Threw?
    ensures |AllTasks(MoveTask(b, fromGroupId, fromTaskId, toGroupId, toIdx).after.groups)|
            == |AllTasks(b.groups)| - 1
  {
    var o := FindIndex(b.groups, GroupKey, fromGroupId);
    var moved := Extracted(b.groups[o].tasks, fromTaskId);
    var b1 := WithoutMoved(b, o, fromTaskId);
    assert b1.groups == b.groups[o := b1.groups[o]];
    AllTasksWithGroup(b.groups, o, b1.groups[o]);
    MultisetSwap(multiset(AllTasks(b1.groups)), multiset(AllTasks(b.groups)),
                 multiset(b.groups[o].tasks), multiset(b1.groups[o].tasks), multiset{moved});
    assert |multiset(AllTasks(b1.groups))| + 1 == |multiset(AllTasks(b.groups))|;
  }

  /** A concrete instance: one group holding one task, moved to a group that does not exist. */
  lemma MoveTaskLosesTaskExample()
    ensures var t := Task("t1", "", "", None, None, false, 0, [], [], None, None);
      var b := Board("b1", "", false, false, false, None, [], [], [Group("g1", "", false, [t])]);
      MoveTask(b, "g1", "t1", "g2", 0) == Threw(b.(groups := [Group("g1", "", false, [])]))
  {
    var t := Task("t1", "", "", None, None, false, 0, [], [], None, None);
    var b := Board("b1", "", false, false, false, None, [], [], [Group("g1", "", false, [t])]);
    assert FindIndex(b.groups, GroupKey, "g1") == 0;
    assert FindIndex(b.groups[0].tasks, TaskKey, "t1") == 0;
    assert SpliceOutKey(b.groups[0].tasks, TaskKey, "t1") == [];
    var b1 := WithoutMoved(b, 0, "t1");
    assert b1 == b.(groups := [Group("g1", "", false, [])]);
    assert FindIndex(b1.groups, GroupKey, "g2") == -1;
  }

  /** The move with both groups resolved before anything changes: it applies fully or not at all. */
  function MoveTaskChecked(b: Board, fromGroupId: Id, fromTaskId: Id, toGroupId: Id, toIdx: int): (r: Outcome<Board>)
    requires OriginHasTask(b, fromGroupId)
    ensures r.Threw? ==> r.after == b
    ensures r.Threw? <==> FreshKey(b.groups, GroupKey, fromGroupId) || FreshKey(b.groups, GroupKey, toGroupId)
    ensures r.Done? ==> r == MoveTask(b, fromGroupId, fromTaskId, toGroupId, toIdx)
  {
    if FindIndex(b.groups, GroupKey, toGroupId) < 0 then Threw(b)
    else MoveTask(b, fromGroupId, fromTaskId, toGroupId, toIdx)
  }

  /** Whatever the ids, the checked move keeps every task on the board exactly once. */
  lemma MoveTaskCheckedConservesTasks(b: Board, fromGroupId: Id, fromTaskId: Id, toGroupId: Id, toIdx: int)
    requires OriginHasTask(b, fromGroupId)
    ensures multiset(AllTasks(MoveTaskChecked(b, fromGroupId, fromTaskId, toGroupId, toIdx).after.groups))
            == multiset(AllTasks(b.groups))
  {
    if MoveTaskChecked(b, fromGroupId, fromTaskId, toGroupId, toIdx).Done? {
      MoveTaskConservesTasks(b, fromGroupId, fromTaskId, toGroupId, toIdx);
    }
  }
}

=== FILE: task_mutations.dfy ===
/**
  The task mutations of the board store: field edits on one task (title,
  description, due date, cover, watch flag), attachments, archiving, and the
  `task` add/update/remove mutation the save and remove actions commit.
  Each one locates the group and then the task by id; a lookup that misses
  leaves `undefined`, and the next property access throws.
 */
module TaskMutations {
  import opened JsArray
  import opened BoardTree

  /** The mutation throws exactly when the id chain does not resolve, and then changes nothing. */
  ghost predicate ThrowsOnlyUnresolved(b: Board, groupId: Id, taskId: Id, r: Outcome<Board>) {
    && (r.Threw? <==> LocateTask(b, groupId, taskId).None?)
    && (r.Threw? ==> r.after == b)
  }

  /** The located task is the only thing that changed. */
  ghost predicate ChangedOnlyLocated(b: Board, groupId: Id, taskId: Id, r: Outcome<Board>)
    requires r.Done? ==> LocateTask(b, groupId, taskId).Some?
  {
    r.Done? ==>
      var p := LocateTask(b, groupId, taskId).value;
      ValidPath(r.after, p) && OnlyTaskDiffers(b, r.after, p)
  }

  /** The task at the path the lookup resolved to in `b`, as it stands in `after`. */
  function Located(b: Board, groupId: Id, taskId: Id, after: Board): Task
    requires LocateTask(b, groupId, taskId).Some?
    requires ValidPath(after, LocateTask(b, groupId, taskId).value)
  {
    TaskAt(after, LocateTask(b, groupId, taskId).value)
  }

  /** `editTaskTitle`: only the title of the located task changes. */
  function EditTaskTitle(b: Board, groupId: Id, taskId: Id, title: string): (r: Outcome<Board>)
    ensures ThrowsOnlyUnresolved(b, groupId, taskId, r)
    ensures ChangedOnlyLocated(b, groupId, taskId, r)
    ensures r.Done? ==> var t := Located(b, groupId, taskId, b);
      Located(b, groupId, taskId, r.after).title == title
      && Located(b, groupId, taskId, r.after).(title := t.title) == t
  {
    match LocateTask(b, groupId, taskId)
    case None => Threw(b)
    case Some(p) => Done(WithTask(b, p, TaskAt(b, p).(title := title)))
  }

  /** `saveTaskDescription`: only the description of the located task changes. */
  function SaveTaskDescription(b: Board, groupId: Id, taskId: Id, description: string): (r: Outcome<Board>)
    ensures ThrowsOnlyUnresolved(b, groupId, taskId, r)
    ensures ChangedOnlyLocated(b, groupId, taskId, r)
    ensures r.Done? ==> var t := Located(b, groupId, taskId, b);
      Located(b, groupId, taskId, r.after).description == description
      && Located(b, groupId, taskId, r.after).(description := t.description) == t
  {
    match LocateTask(b, groupId, taskId)
    case None => Threw(b)
    case Some(p) => Done(WithTask(b, p, TaskAt(b, p).(description := description)))
  }

  /** `setDueDate`: only the due date of the located task changes. */
  function SetDueDate(b: Board, groupId: Id, taskId: Id, dueDate: Option<int>): (r: Outcome<Board>)
    ensures ThrowsOnlyUnresolved(b, groupId, taskId, r)
    ensures ChangedOnlyLocated(b, groupId, taskId, r)
    ensures r.Done? ==> var t := Located(b, groupId, taskId, b);
      Located(b, groupId, taskId, r.after).dueDate == dueDate
      && Located(b, groupId, taskId, r.after).(dueDate := t.dueDate) == t
  {
    match LocateTask(b, groupId, taskId)
    case None => Threw(b)
    case Some(p) => Done(WithTask(b, p, TaskAt(b, p).(dueDate := dueDate)))
  }

  /** `setCover`: the sentinel "reset" clears the cover (null); any other value becomes the cover. */
  function SetCover(b: Board, groupId: Id, taskId: Id, cover: string): (r: Outcome<Board>)
    ensures ThrowsOnlyUnresolved(b, groupId, taskId, r)
    ensures ChangedOnlyLocated(b, groupId, taskId, r)
    ensures r.Done? ==> var t := Located(b, groupId, taskId, b);
      && Located(b, groupId, taskId, r.after).cover != Some("reset")
      && (cover == "reset" ==> Located(b, groupId, taskId, r.after).cover.None?)
      && (cover != "reset" ==> Located(b, groupId, taskId, r.after).cover == Some(cover))
      && Located(b, groupId, taskId, r.after).(cover := t.cover) == t
  {
    match LocateTask(b, groupId, taskId)
    case None => Threw(b)
    case Some(p) =>
      var t := TaskAt(b, p);
      Done(WithTask(b, p, if cover == "reset" then t.(cover := None) else t.(cover := Some(cover))))
  }

  /** `toggleWatchTask`: flips the watch flag of the located task (undefined reads as false). */
  function ToggleWatchTask(b: Board, groupId: Id, taskId: Id): (r: Outcome<Board>)
    ensures ThrowsOnlyUnresolved(b, groupId, taskId, r)
    ensures ChangedOnlyLocated(b, groupId, taskId, r)
    ensures r.Done? ==> var t := Located(b, groupId, taskId, b);
      Located(b, groupId, taskId, r.after).isWatched != t.isWatched
      && Located(b, groupId, taskId, r.after).(isWatched := t.isWatched) == t
  {
    match LocateTask(b, groupId, taskId)
    case None => Threw(b)
    case Some(p) =>
      var t := TaskAt(b, p);
      Done(WithTask(b, p, t.(isWatched := if t.isWatched then false else true)))
  }

  /** `saveAttachment`: appends to the located task's attachments, creating the list if it is absent. */
  function SaveAttachment(b: Board, groupId: Id, taskId: Id, attachment: Attachment): (r: Outcome<Board>)
    ensures ThrowsOnlyUnresolved(b, groupId, taskId, r)
    ensures ChangedOnlyLocated(b, groupId, taskId, r)
    ensures r.Done? ==> var t := Located(b, groupId, taskId, b);
      var prior := if t.attachments.Some? then t.attachments.value else [];
      && Located(b, groupId, taskId, r.after).attachments.Some?
      && |Located(b, groupId, taskId, r.after).attachments.value| == |prior| + 1
      && Located(b, groupId, taskId, r.after).attachments.value[..|prior|] == prior
      && Located(b, groupId, taskId, r.after).attachments.value[|prior|] == attachment
      && Located(b, groupId, taskId, r.after).(attachments := t.attachments) == t
  {
    match LocateTask(b, groupId, taskId)
    case None => Threw(b)
    case Some(p) =>
      var t := TaskAt(b, p);
      var atts := if t.attachments.Some? then t.attachments.value else [];
      Done(WithTask(b, p, t.(attachments := Some(atts + [attachment]))))
  }

  /**
    `removeAttachment`: splices one attachment out at `idx` on the located task; an
    absent attachment list throws. An index in range drops that attachment.
   */
  function RemoveAttachment(b: Board, groupId: Id, taskId: Id, idx: int): (r: Outcome<Board>)
    ensures r.Threw? <==> (LocateTask(b, groupId, taskId).None?
                           || Located(b, groupId, taskId, b).attachments.None?)
    ensures r.Threw? ==> r.after == b
    ensures ChangedOnlyLocated(b, groupId, taskId, r)
    ensures r.Done? ==> var t := Located(b, groupId, taskId, b);
      var atts := t.attachments.value;
      && Located(b, groupId, taskId, r.after).attachments.Some?
      && (0 <= idx < |atts| ==>
            Located(b, groupId, taskId, r.after).attachments.value == atts[..idx] + atts[idx + 1..])
      && Located(b, groupId, taskId, r.after).(attachments := t.attachments) == t
  {
    match LocateTask(b, groupId, taskId)
    case None => Threw(b)
    case Some(p) =>
      var t := TaskAt(b, p);
      if t.attachments.None? then Threw(b)
      else Done(WithTask(b, p, t.(attachments := Some(Splice(t.attachments.value, idx, 1, [])))))
  }

  /**
    `archiveTask`: splices out the task at the id's index in the located group. An id
    that is present drops its first occurrence; a missing id makes
    `findIndex` answer -1, and the splice then drops the group's LAST task.
   */
  function ArchiveTask(b: Board, groupId: Id, taskId: Id): (r: Outcome<Board>)
    ensures r.Threw? <==> FreshKey(b.groups, GroupKey, groupId)
    ensures r.Threw? ==> r.after == b
    ensures r.Done? ==> var g := FindIndex(b.groups, GroupKey, groupId);
      && OnlyGroupDiffers(b, r.after, g)
      && r.after.groups[g].(tasks := b.groups[g].tasks) == b.groups[g]
      && r.after.groups[g].tasks == SpliceOutKey(b.groups[g].tasks, TaskKey, taskId)
  {
    var g := FindIndex(b.groups, GroupKey, groupId);
    if g < 0 then Threw(b)
    else Done(WithGroup(b, g, b.groups[g].(tasks := SpliceOutKey(b.groups[g].tasks, TaskKey, taskId))))
  }

  /** `archiveAllTasks`: the located group keeps everything but its tasks, which become empty. */
  function ArchiveAllTasks(b: Board, groupId: Id): (r: Outcome<Board>)
    ensures r.Threw? <==> FreshKey(b.groups, GroupKey, groupId)
    ensures r.Threw? ==> r.after == b
    ensures r.Done? ==> var g := FindIndex(b.groups, GroupKey, groupId);
      && OnlyGroupDiffers(b, r.after, g)
      && r.after.groups[g].tasks == []
      && r.after.groups[g].(tasks := b.groups[g].tasks) == b.groups[g]
  {
    var g := FindIndex(b.groups, GroupKey, groupId);
    if g < 0 then Threw(b)
    else Done(WithGroup(b, g, b.groups[g].(tasks := [])))
  }

  /**
    `task`: add appends, update replaces the task found by id (a miss
    replaces the last task) and then points the focused task at it, remove
    splices out the task found by id (a miss drops the last task). A missing
    group throws before any change; in update a null focused-task record
    throws AFTER the replacement.
   */
  function TaskChange(s: State, change: Change, groupId: Id, task: Task): (r: Outcome<State>)
    ensures s.currBoard.None? || FreshKey(s.currBoard.value.groups, GroupKey, groupId) ==> r == Threw(s)
    ensures r.after.(currBoard := s.currBoard, currTaskData := s.currTaskData) == s
    ensures r.Threw? ==> r.after.currTaskData == s.currTaskData
    ensures change == Update && r.Done? ==> r.after.currTaskData.Some? && r.after.currTaskData.value.task == Some(task)
    ensures change == Update && r.Done? && s.currTaskData.Some? ==>
              r.after.currTaskData == Some(s.currTaskData.value.(task := Some(task)))
    ensures change != Update ==> r.after.currTaskData == s.currTaskData
    ensures s.currBoard.Some? && !FreshKey(s.currBoard.value.groups, GroupKey, groupId) ==>
      var b := s.currBoard.value;
      var g := FindIndex(b.groups, GroupKey, groupId);
      var ts := b.groups[g].tasks;
      && r.after.currBoard.Some?
      && OnlyGroupDiffers(b, r.after.currBoard.value, g)
      && r.after.currBoard.value.groups[g].(tasks := ts) == b.groups[g]
      && (change == Add ==> r == Done(s.(currBoard := r.after.currBoard)) && r.after.currBoard.value.groups[g].tasks == ts + [task])
      && (change == Update ==> r.after.currBoard.value.groups[g].tasks == SpliceInKey(ts, TaskKey, task.id, task))
      && (change == Update ==> (r.Threw? <==> s.currTaskData.None?))
      && (change == Remove ==> r == Done(s.(currBoard := r.after.currBoard)) && r.after.currBoard.value.groups[g].tasks == SpliceOutKey(ts, TaskKey, task.id))
      && (change in {Set, NoChange} ==> r == Done(s))
  {
    if s.currBoard.None? then Threw(s)
    else
      var b := s.currBoard.value;
      var g := FindIndex(b.groups, GroupKey, groupId);
      if g < 0 then Threw(s)
      else
        var grp := b.groups[g];
        match change
        case Add => Done(s.(currBoard := Some(WithGroup(b, g, grp.(tasks := grp.tasks + [task])))))
        case Update =>
          var s1 := s.(currBoard := Some(WithGroup(b, g, grp.(tasks := SpliceInKey(grp.tasks, TaskKey, task.id, task)))));
          if s1.currTaskData.None? then Threw(s1)
          else Done(s1.(currTaskData := Some(s1.currTaskData.value.(task := Some(task)))))
        case Remove => Done(s.(currBoard := Some(WithGroup(b, g, grp.(tasks := SpliceOutKey(grp.tasks, TaskKey, task.id))))))
        case _ => Done(s)
  }

  /** After a title edit the same ids resolve to the same place, and an edit back to the old title undoes it. */
  lemma EditTaskTitleRoundTrip(b: Board, groupId: Id, taskId: Id, title: string)
    requires EditTaskTitle(b, groupId, taskId, title).Done?
    ensures LocateTask(EditTaskTitle(b, groupId, taskId, title).after, groupId, taskId)
            == LocateTask(b, groupId, taskId)
    ensures EditTaskTitle(EditTaskTitle(b, groupId, taskId, title).after, groupId, taskId,
                          Located(b, groupId, taskId, b).title) == Done(b)
  {
    var p := LocateTask(b, groupId, taskId).value;
    var r := EditTaskTitle(b, groupId, taskId, title).after;
    OnlyTaskDiffersKeepsLocate(b, r, p, groupId, taskId);
    WithTaskRestores(b, p, TaskAt(r, p));
  }

  /** The same two facts for the description. */
  lemma SaveTaskDescriptionRoundTrip(b: Board, groupId: Id, taskId: Id, description: string)
    requires SaveTaskDescription(b, groupId, taskId, description).Done?
    ensures LocateTask(SaveTaskDescription(b, groupId, taskId, description).after, groupId, taskId)
            == LocateTask(b, groupId, taskId)
    ensures SaveTaskDescription(SaveTaskDescription(b, groupId, taskId, description).after, groupId, taskId,
                                Located(b, groupId, taskId, b).description) == Done(b)
  {
    var p := LocateTask(b, groupId, taskId).value;
    var r := SaveTaskDescription(b, groupId, taskId, description).after;
    OnlyTaskDiffersKeepsLocate(b, r, p, groupId, taskId);
    WithTaskRestores(b, p, TaskAt(r, p));
  }

  /** The same two facts for the due date. */
  lemma SetDueDateRoundTrip(b: Board, groupId: Id, taskId: Id, dueDate: Option<int>)
    requires SetDueDate(b, groupId, taskId, dueDate).Done?
    ensures LocateTask(SetDueDate(b, groupId, taskId, dueDate).after, groupId, taskId)
            == LocateTask(b, groupId, taskId)
    ensures SetDueDate(SetDueDate(b, groupId, taskId, dueDate).after, groupId, taskId,
                       Located(b, groupId, taskId, b).dueDate) == Done(b)
  {
    var p := LocateTask(b, groupId, taskId).value;
    var r := SetDueDate(b, groupId, taskId, dueDate).after;
    OnlyTaskDiffersKeepsLocate(b, r, p, groupId, taskId);
    WithTaskRestores(b, p, TaskAt(r, p));
  }

  /**
    A cover change is undone by setting the old cover back, where "reset"
    stands for no cover; a stored cover is never the sentinel itself.
   */
  lemma SetCoverRoundTrip(b: Board, groupId: Id, taskId: Id, cover: string, previous: string)
    requires SetCover(b, groupId, taskId, cover).Done?
    requires Located(b, groupId, taskId, b).cover == (if previous == "reset" then None else Some(previous))
    ensures SetCover(SetCover(b, groupId, taskId, cover).after, groupId, taskId, previous) == Done(b)
  {
    var p := LocateTask(b, groupId, taskId).value;
    var r := SetCover(b, groupId, taskId, cover).after;
    OnlyTaskDiffersKeepsLocate(b, r, p, groupId, taskId);
    WithTaskRestores(b, p, TaskAt(r, p));
  }

  /** Watching is an involution: toggling twice restores the board. */
  lemma ToggleWatchTaskTwice(b: Board, groupId: Id, taskId: Id)
    ensures ToggleWatchTask(ToggleWatchTask(b, groupId, taskId).after, groupId, taskId).after == b
  {
    var o := ToggleWatchTask(b, groupId, taskId);
    if o.Done? {
      var p := LocateTask(b, groupId, taskId).value;
      OnlyTaskDiffersKeepsLocate(b, o.after, p, groupId, taskId);
      WithTaskRestores(b, p, TaskAt(o.after, p));
    }
  }

  /** Removing the attachment just saved (at the end of an existing list) restores the board. */
  lemma SaveThenRemoveAttachment(b: Board, groupId: Id, taskId: Id, attachment: Attachment)
    requires LocateTask(b, groupId, taskId).Some?
    requires Located(b, groupId, taskId, b).attachments.Some?
    ensures var atts := Located(b, groupId, taskId, b).attachments.value;
      RemoveAttachment(SaveAttachment(b, groupId, taskId, attachment).after, groupId, taskId, |atts|) == Done(b)
  {
    var p := LocateTask(b, groupId, taskId).value;
    var atts := TaskAt(b, p).attachments.value;
    var r := SaveAttachment(b, groupId, taskId, attachment).after;
    OnlyTaskDiffersKeepsLocate(b, r, p, groupId, taskId);
    var later := TaskAt(r, p).attachments.value;
    SpliceRemoveAt(later, |atts|);
    assert later[..|atts|] + later[|atts| + 1..] == atts;
    WithTaskRestores(b, p, TaskAt(r, p));
  }

  /**
    With unique task ids, archiving a present task removes exactly that task
    from the board: one task fewer, no task left with its id in the group.
   */
  lemma ArchiveTaskDropsTask(b: Board, groupId: Id, taskId: Id)
    requires LocateTask(b, groupId, taskId).Some?
    requires UniqueKeys(b.groups[LocateTask(b, groupId, taskId).value.g].tasks, TaskKey)
    ensures ArchiveTask(b, groupId, taskId).Done?
    ensures var r := ArchiveTask(b, groupId, taskId).after;
      var g := LocateTask(b, groupId, taskId).value.g;
      && |r.groups[g].tasks| == |b.groups[g].tasks| - 1
      && FreshKey(r.groups[g].tasks, TaskKey, taskId)
      && multiset(AllTasks(r.groups)) + multiset{Located(b, groupId, taskId, b)} == multiset(AllTasks(b.groups))
  {
    var p := LocateTask(b, groupId, taskId).value;
    var ts := b.groups[p.g].tasks;
    SpliceOutKeyDropsKey(ts, TaskKey, taskId);
    var r := ArchiveTask(b, groupId, taskId).after;
    assert r.groups == b.groups[p.g := r.groups[p.g]];
    AllTasksWithGroup(b.groups, p.g, r.groups[p.g]);
    MultisetSwap(multiset(AllTasks(r.groups)), multiset(AllTasks(b.groups)),
                 multiset(ts), multiset(r.groups[p.g].tasks), multiset{TaskAt(b, p)});
  }

  /** Archiving all tasks of a group takes exactly that group's tasks off the board. */
  lemma ArchiveAllTasksCount(b: Board, groupId: Id)
    requires !FreshKey(b.groups, GroupKey, groupId)
    ensures var g := FindIndex(b.groups, GroupKey, groupId);
      multiset(AllTasks(ArchiveAllTasks(b, groupId).after.groups)) + multiset(b.groups[g].tasks)
      == multiset(AllTasks(b.groups))
  {
    var g := FindIndex(b.groups, GroupKey, groupId);
    var r := ArchiveAllTasks(b, groupId).after;
    assert r.groups == b.groups[g := r.groups[g]];
    AllTasksWithGroup(b.groups, g, r.groups[g]);
  }
}

=== FILE: task_sort.dfy ===
/**
  `sortGroup`: the group's tasks sorted in place by `Array.prototype.sort`,
  which is stable. "oldest" orders by ascending `createdAt`, "alphabet" by
  `title.localeCompare`, any other key by descending `createdAt`. The sort is
  an insertion sort, stable like the engine's, over an ordering given as a
  "comes no later than" predicate. `localeCompare` is locale-dependent
  library code, so the title order is a parameter, required to be a total
  preorder.
 */
module TaskSort {
  import opened JsArray
  import opened BoardTree

  /** Any two elements are comparable. */
  ghost predicate Total<T(!new)>(leq: (T, T) -> bool) {
    forall a, b :: leq(a, b) || leq(b, a)
  }

  ghost predicate TotalPreorder<T(!new)>(leq: (T, T) -> bool) {
    && Total(leq)
    && (forall a, b, c :: leq(a, b) && leq(b, c) ==> leq(a, c))
  }

  /** Each element comes no later than the next. */
  ghost predicate Sorted<T>(s: seq<T>, leq: (T, T) -> bool) {
    forall i :: 0 < i < |s| ==> leq(s[i - 1], s[i])
  }

  /** Inserts `x` before the first element it comes no later than. */
  function Insert<T(!new)>(x: T, s: seq<T>, leq: (T, T) -> bool): (r: seq<T>)
    ensures |r| == |s| + 1
    ensures multiset(r) == multiset(s) + multiset{x}
    ensures r[0] == x || (0 < |s| && r[0] == s[0])
    ensures Total(leq) && Sorted(s, leq) ==> Sorted(r, leq)
  {
    if |s| == 0 then [x]
    else if leq(x, s[0]) then [x] + s
    else
      assert s == [s[0]] + s[1..];
      [s[0]] + Insert(x, s[1..], leq)
  }

  /** Insertion sort: each element goes in front of the sorted rest, before its equals there. */
  function SortBy<T(!new)>(s: seq<T>, leq: (T, T) -> bool): (r: seq<T>)
    ensures multiset(r) == multiset(s)
    ensures Total(leq) ==> Sorted(r, leq)
  {
    if |s| == 0 then []
    else
      assert s == [s[0]] + s[1..];
      Insert(s[0], SortBy(s[1..], leq), leq)
  }

  /** In a sorted sequence under a transitive order, every earlier element comes no later than every later one. */
  lemma {:induction false} SortedPairwise<T(!new)>(s: seq<T>, leq: (T, T) -> bool, i: int, j: int)
    requires TotalPreorder(leq) && Sorted(s, leq)
    requires 0 <= i < j < |s|
    ensures leq(s[i], s[j])
  {
    if j > i + 1 {
      SortedPairwise(s, leq, i, j - 1);
    }
  }

  function OldestFirst(a: Task, b: Task): bool { a.createdAt <= b.createdAt }
  function NewestFirst(a: Task, b: Task): bool { a.createdAt >= b.createdAt }

  /** The comparator `sortGroup` hands to `sort`, as a "comes no later than" predicate. */
  function SortOrder(sortBy: string, titleLeq: (string, string) -> bool): (Task, Task) -> bool {
    if sortBy == "alphabet" then (a: Task, b: Task) => titleLeq(a.title, b.title)
    else if sortBy == "oldest" then OldestFirst
    else NewestFirst
  }

  /** Every order `sortGroup` can pick is a total preorder on tasks. */
  lemma SortOrderIsTotalPreorder(sortBy: string, titleLeq: (string, string) -> bool)
    requires sortBy == "alphabet" ==> TotalPreorder(titleLeq)
    ensures TotalPreorder(SortOrder(sortBy, titleLeq))
  {
    var leq := SortOrder(sortBy, titleLeq);
    if sortBy == "alphabet" {
      forall a: Task, b: Task ensures leq(a, b) || leq(b, a) {
        assert titleLeq(a.title, b.title) || titleLeq(b.title, a.title);
      }
      forall a: Task, b: Task, c: Task | leq(a, b) && leq(b, c) ensures leq(a, c) {
        assert titleLeq(a.title, b.title) && titleLeq(b.title, c.title);
      }
    }
  }

  /**
    `sortGroup`: the first group with the id gets its tasks sorted (a
    permutation, in the requested order); a missing group throws.
   */
  function SortGroup(b: Board, groupId: Id, sortBy: string, titleLeq: (string, string) -> bool): (r: Outcome<Board>)
    requires sortBy == "alphabet" ==> TotalPreorder(titleLeq)
    ensures r.Threw? <==> FreshKey(b.groups, GroupKey, groupId)
    ensures r.Threw? ==> r.after == b
    ensures r.Done? ==> var g := FindIndex(b.groups, GroupKey, groupId);
      && OnlyGroupDiffers(b, r.after, g)
      && r.after.groups[g].(tasks := b.groups[g].tasks) == b.groups[g]
      && multiset(r.after.groups[g].tasks) == multiset(b.groups[g].tasks)
      && Sorted(r.after.groups[g].tasks, SortOrder(sortBy, titleLeq))
  {
    var g := FindIndex(b.groups, GroupKey, groupId);
    if g < 0 then Threw(b)
    else
      var leq := SortOrder(sortBy, titleLeq);
      SortOrderIsTotalPreorder(sortBy, titleLeq);
      Done(WithGroup(b, g, b.groups[g].(tasks := SortBy(b.groups[g].tasks, leq))))
  }

  /**
    The createdAt orders in the usual all-pairs form: "oldest" leaves every
    task no newer than any task after it, any other non-alphabet key no older.
   */
  lemma SortGroupByCreatedAt(b: Board, groupId: Id, sortBy: string, titleLeq: (string, string) -> bool)
    requires sortBy != "alphabet" && !FreshKey(b.groups, GroupKey, groupId)
    ensures var ts := SortGroup(b, groupId, sortBy, titleLeq).after.groups[FindIndex(b.groups, GroupKey, groupId)].tasks;
      forall i, j :: 0 <= i < j < |ts| ==>
        if sortBy == "oldest" then ts[i].createdAt <= ts[j].createdAt else ts[i].createdAt >= ts[j].createdAt
  {
    var ts := SortGroup(b, groupId, sortBy, titleLeq).after.groups[FindIndex(b.groups, GroupKey, groupId)].tasks;
    var leq := SortOrder(sortBy, titleLeq);
    SortOrderIsTotalPreorder(sortBy, titleLeq);
    forall i, j | 0 <= i < j < |ts|
      ensures if sortBy == "oldest" then ts[i].createdAt <= ts[j].createdAt else ts[i].createdAt >= ts[j].createdAt
    {
      SortedPairwise(ts, leq, i, j);
    }
  }
}

=== FILE: todo_mutations.dfy ===
/**
  Checklists on a task: create a list, add a todo, toggle a todo (which
  recomputes the list's progress), delete a list, toggle hiding of checked
  todos. Every mutation but `newTodoList` reads `task.todoLists`, so on a
  task without checklists it throws; so does a list or todo id that misses,
  except in `deleteTodoList`, whose `findIndex` miss splices out the last list.
 */
module TodoMutations {
  import opened JsArray
  import opened BoardTree
  import opened TaskMutations

  /** How many of the todos are done. */
  function DoneCount(todos: seq<Todo>): (n: nat)
    ensures n <= |todos|
    ensures n == 0 <==> forall k :: 0 <= k < |todos| ==> !todos[k].isDone
    ensures n == |todos| <==> forall k :: 0 <= k < |todos| ==> todos[k].isDone
  {
    if |todos| == 0 then 0
    else (if todos[0].isDone then 1 else 0) + DoneCount(todos[1..])
  }

  /** The done count of two lists put together is the sum of their counts. */
  lemma {:induction false} DoneCountAppend(a: seq<Todo>, c: seq<Todo>)
    ensures DoneCount(a + c) == DoneCount(a) + DoneCount(c)
  {
    if |a| == 0 {
      assert a + c == c;
    } else {
      assert (a + c)[1..] == a[1..] + c;
      DoneCountAppend(a[1..], c);
    }
  }

  /**
    Flipping one todo moves the done count by exactly one: up when it was not
    done, down when it was. With `DoneCount([]) == 0` and `DoneCountAppend`
    this pins the count to the number of done todos.
   */
  lemma DoneCountFlip(todos: seq<Todo>, k: int)
    requires 0 <= k < |todos|
    ensures DoneCount(todos[k := todos[k].(isDone := !todos[k].isDone)])
            == DoneCount(todos) + (if todos[k].isDone then -1 else 1)
  {
    var t := todos[k];
    var f := t.(isDone := !t.isDone);
    assert todos == todos[..k] + [t] + todos[k + 1..];
    assert todos[k := f] == todos[..k] + [f] + todos[k + 1..];
    DoneCountAppend(todos[..k] + [t], todos[k + 1..]);
    DoneCountAppend(todos[..k], [t]);
    DoneCountAppend(todos[..k] + [f], todos[k + 1..]);
    DoneCountAppend(todos[..k], [f]);
  }

  /** `a <= b` survives multiplying both sides by the same non-negative `n`. */
  lemma MulMono(a: int, b: int, n: nat)
    requires a <= b
    ensures a * n <= b * n
  {
    assert b * n - a * n == (b - a) * n;
  }

  /**
    If `d * 100 == q * n + m` with `0 <= m < n`, then `q` is the rounded-down
    percentage `d` is of `n`: it brackets `d * 100` and reaches 100 exactly
    when `d` is all of `n`.
   */
  lemma FloorPercent(d: nat, n: nat, q: int, m: int)
    requires 0 < n && d <= n
    requires d * 100 == q * n + m && 0 <= m < n
    ensures q * n <= d * 100 < (q + 1) * n
    ensures 0 <= q <= 100
    ensures q == 100 <==> d == n
    ensures q == 0 <==> d * 100 < n
  {
    assert (q + 1) * n == q * n + n;
    if q < 0 {
      MulMono(q, -1, n);
      assert false;
    }
    if q > 100 {
      MulMono(101, q, n);
      assert false;
    }
    if q == 100 && d < n {
      assert false;
    }
    if d == n && q < 100 {
      MulMono(q + 1, 100, n);
      assert false;
    }
    if q >= 1 {
      MulMono(1, q, n);
    }
  }

  /**
    The percentage of done todos, rounded down. Only computed after a todo
    was found, so the list is never empty here.
   */
  function Progress(todos: seq<Todo>): (p: int)
    requires 0 < |todos|
    ensures p * |todos| <= DoneCount(todos) * 100 < (p + 1) * |todos|
    ensures 0 <= p <= 100
    ensures p == 100 <==> DoneCount(todos) == |todos|
    ensures p == 0 <==> DoneCount(todos) * 100 < |todos|
  {
    var d, n := DoneCount(todos), |todos|;
    FloorPercent(d, n, d * 100 / n, d * 100 % n);
    d * 100 / n
  }

  /**
    The list after its todo `k` is toggled: that todo's done flag flips,
    nothing else in the list changes but the progress, which becomes the
    rounded-down percentage of done todos.
   */
  function FlipTodo(l: TodoList, k: nat): (r: TodoList)
    requires k < |l.todos|
    ensures r.(todos := l.todos, progress := l.progress) == l
    ensures |r.todos| == |l.todos|
    ensures r.todos[k] == l.todos[k].(isDone := !l.todos[k].isDone)
    ensures forall j :: 0 <= j < |l.todos| && j != k ==> r.todos[j] == l.todos[j]
    ensures r.progress.Some? && 0 <= r.progress.value <= 100
    ensures r.progress.value * |r.todos| <= DoneCount(r.todos) * 100 < (r.progress.value + 1) * |r.todos|
    ensures r.progress == Some(100) <==> forall j :: 0 <= j < |r.todos| ==> r.todos[j].isDone
  {
    var todos := l.todos[k := l.todos[k].(isDone := !l.todos[k].isDone)];
    l.(todos := todos, progress := Some(Progress(todos)))
  }

  /** A toggle moves the list's done count by exactly one, in the direction of the flip. */
  lemma FlipTodoMovesDoneCount(l: TodoList, k: nat)
    requires k < |l.todos|
    ensures DoneCount(FlipTodo(l, k).todos) == DoneCount(l.todos) + (if l.todos[k].isDone then -1 else 1)
  {
    DoneCountFlip(l.todos, k);
  }

  /** Flipping the same todo twice gives back the todos; only the progress has been recomputed. */
  lemma FlipTodoTwice(l: TodoList, k: nat)
    requires k < |l.todos|
    ensures FlipTodo(FlipTodo(l, k), k) == l.(progress := Some(Progress(l.todos)))
  {
    var l2 := FlipTodo(FlipTodo(l, k), k);
    assert l2.todos == l.todos;
  }

  /** The located task's checklists; the task must resolve and have them. */
  function ListsOf(b: Board, groupId: Id, taskId: Id): seq<TodoList>
    requires LocateTask(b, groupId, taskId).Some?
    requires Located(b, groupId, taskId, b).todoLists.Some?
  {
    Located(b, groupId, taskId, b).todoLists.value
  }

  /** The id chain task → list resolves. */
  ghost predicate ListResolves(b: Board, groupId: Id, taskId: Id, listId: Id) {
    && LocateTask(b, groupId, taskId).Some?
    && Located(b, groupId, taskId, b).todoLists.Some?
    && !FreshKey(ListsOf(b, groupId, taskId), ListKey, listId)
  }

  /** Only checklist `li` of task `t` differs in `u`. */
  ghost predicate OnlyListDiffers(t: Task, u: Task, li: nat)
    requires t.todoLists.Some? && li < |t.todoLists.value|
  {
    && u.(todoLists := t.todoLists) == t
    && u.todoLists.Some?
    && |u.todoLists.value| == |t.todoLists.value|
    && forall j :: 0 <= j < |t.todoLists.value| && j != li ==> u.todoLists.value[j] == t.todoLists.value[j]
  }

  /**
    `newTodoList`: appends an empty list under a fresh id to the located
    task's checklists, creating them if absent.
   */
  function NewTodoList(b: Board, groupId: Id, taskId: Id, title: string, freshId: Id): (r: Outcome<Board>)
    requires freshId != ""
    ensures ThrowsOnlyUnresolved(b, groupId, taskId, r)
    ensures ChangedOnlyLocated(b, groupId, taskId, r)
    ensures r.Done? ==> var t := Located(b, groupId, taskId, b);
      var prior := if t.todoLists.Some? then t.todoLists.value else [];
      var u := Located(b, groupId, taskId, r.after);
      && u.(todoLists := t.todoLists) == t
      && u.todoLists == Some(prior + [TodoList(freshId, title, [], false, None)])
  {
    match LocateTask(b, groupId, taskId)
    case None => Threw(b)
    case Some(p) =>
      var t := TaskAt(b, p);
      var lists := if t.todoLists.Some? then t.todoLists.value else [];
      Done(WithTask(b, p, t.(todoLists := Some(lists + [TodoList(freshId, title, [], false, None)]))))
  }

  /** A new list with a fresh id is the one its id now resolves to, and it starts empty. */
  lemma NewTodoListResolves(b: Board, groupId: Id, taskId: Id, title: string, freshId: Id)
    requires freshId != ""
    requires NewTodoList(b, groupId, taskId, title, freshId).Done?
    requires var t := Located(b, groupId, taskId, b);
      t.todoLists.Some? ==> FreshKey(t.todoLists.value, ListKey, freshId)
    ensures var r := NewTodoList(b, groupId, taskId, title, freshId).after;
      && ListResolves(r, groupId, taskId, freshId)
      && var lists := ListsOf(r, groupId, taskId);
         lists[FindIndex(lists, ListKey, freshId)].todos == []
  {
    var p := LocateTask(b, groupId, taskId).value;
    var r := NewTodoList(b, groupId, taskId, title, freshId).after;
    OnlyTaskDiffersKeepsLocate(b, r, p, groupId, taskId);
    var t := TaskAt(b, p);
    var prior := if t.todoLists.Some? then t.todoLists.value else [];
    FindIndexAppended(prior, ListKey, TodoList(freshId, title, [], false, None));
  }

  /** `addTodo`: appends a not-done todo under a fresh id to the list found by id. */
  function AddTodo(b: Board, groupId: Id, taskId: Id, listId: Id, title: string, freshId: Id): (r: Outcome<Board>)
    requires freshId != ""
    ensures r.Threw? <==> !ListResolves(b, groupId, taskId, listId)
    ensures r.Threw? ==> r.after == b
    ensures ChangedOnlyLocated(b, groupId, taskId, r)
    ensures r.Done? ==>
      var t := Located(b, groupId, taskId, b);
      var li := FindIndex(t.todoLists.value, ListKey, listId);
      var u := Located(b, groupId, taskId, r.after);
      && OnlyListDiffers(t, u, li)
      && u.todoLists.value[li].(todos := t.todoLists.value[li].todos) == t.todoLists.value[li]
      && u.todoLists.value[li].todos == t.todoLists.value[li].todos + [Todo(freshId, title, false)]
  {
    match LocateTask(b, groupId, taskId)
    case None => Threw(b)
    case Some(p) =>
      var t := TaskAt(b, p);
      if t.todoLists.None? then Threw(b)
      else
        var lists := t.todoLists.value;
        var li := FindIndex(lists, ListKey, listId);
        if li < 0 then Threw(b)
        else
          var l := lists[li];
          Done(WithTask(b, p, t.(todoLists := Some(lists[li := l.(todos := l.todos + [Todo(freshId, title, false)])]))))
  }

  /** The todo just added, under a fresh id, is the one its id finds, at the end of its list, not done. */
  lemma AddTodoFindsNew(b: Board, groupId: Id, taskId: Id, listId: Id, title: string, freshId: Id)
    requires freshId != ""
    requires ListResolves(b, groupId, taskId, listId)
    requires var lists := ListsOf(b, groupId, taskId);
      FreshKey(lists[FindIndex(lists, ListKey, listId)].todos, TodoKey, freshId)
    ensures var r := AddTodo(b, groupId, taskId, listId, title, freshId);
      var lists := ListsOf(b, groupId, taskId);
      var n := |lists[FindIndex(lists, ListKey, listId)].todos|;
      && r.Done?
      && ListResolves(r.after, groupId, taskId, listId)
      && var after := ListsOf(r.after, groupId, taskId);
         var l := after[FindIndex(after, ListKey, listId)];
         && FindIndex(l.todos, TodoKey, freshId) == n
         && !l.todos[n].isDone
  {
    var p := LocateTask(b, groupId, taskId).value;
    var r := AddTodo(b, groupId, taskId, listId, title, freshId).after;
    OnlyTaskDiffersKeepsLocate(b, r, p, groupId, taskId);
    var t := TaskAt(b, p);
    var u := TaskAt(r, p);
    var lists := t.todoLists.value;
    assert forall j :: 0 <= j < |lists| ==> u.todoLists.value[j].id == lists[j].id;
    FindIndexSameKeys(lists, u.todoLists.value, ListKey, listId);
    var li := FindIndex(lists, ListKey, listId);
    FindIndexAppended(lists[li].todos, TodoKey, Todo(freshId, title, false));
  }

  /**
    `toggleTodo` on the task itself: the list found by id is replaced by its
    flip at the todo found by id. None where the source reads `undefined`:
    no checklists, or a list or todo id that misses.
   */
  function ToggleTodoIn(t: Task, listId: Id, todoId: Id): (r: Option<Task>)
    ensures r.None? <==> (t.todoLists.None?
                          || FreshKey(t.todoLists.value, ListKey, listId)
                          || var l := t.todoLists.value[FindIndex(t.todoLists.value, ListKey, listId)];
                             FreshKey(l.todos, TodoKey, todoId))
    ensures r.Some? ==>
      var li := FindIndex(t.todoLists.value, ListKey, listId);
      var l := t.todoLists.value[li];
      && OnlyListDiffers(t, r.value, li)
      && r.value.todoLists.value[li] == FlipTodo(l, FindIndex(l.todos, TodoKey, todoId))
  {
    if t.todoLists.None? then None
    else
      var lists := t.todoLists.value;
      var li := FindIndex(lists, ListKey, listId);
      if li < 0 then None
      else
        var l := lists[li];
        var k := FindIndex(l.todos, TodoKey, todoId);
        if k < 0 then None
        else Some(t.(todoLists := Some(lists[li := FlipTodo(l, k)])))
  }

  /** Toggling the same todo of a task twice restores every todo; the list keeps the recomputed progress. */
  lemma ToggleTodoInTwice(t: Task, listId: Id, todoId: Id)
    requires ToggleTodoIn(t, listId, todoId).Some?
    ensures var lists := t.todoLists.value;
      var li := FindIndex(lists, ListKey, listId);
      ToggleTodoIn(ToggleTodoIn(t, listId, todoId).value, listId, todoId)
        == Some(t.(todoLists := Some(lists[li := lists[li].(progress := Some(Progress(lists[li].todos)))])))
  {
    var u := ToggleTodoIn(t, listId, todoId).value;
    var lists := t.todoLists.value;
    var li := FindIndex(lists, ListKey, listId);
    assert forall j :: 0 <= j < |lists| ==> u.todoLists.value[j].id == lists[j].id;
    FindIndexSameKeys(lists, u.todoLists.value, ListKey, listId);
    var l := lists[li];
    var k := FindIndex(l.todos, TodoKey, todoId);
    var l1 := u.todoLists.value[li];
    assert forall j :: 0 <= j < |l.todos| ==> l1.todos[j].id == l.todos[j].id;
    FindIndexSameKeys(l.todos, l1.todos, TodoKey, todoId);
    FlipTodoTwice(l, k);
    assert u.todoLists.value[li := FlipTodo(l1, k)] == lists[li := l.(progress := Some(Progress(l.todos)))];
  }

  /** `toggleTodo`: the located task is toggled as `ToggleTodoIn` says; nothing else changes. */
  function ToggleTodo(b: Board, groupId: Id, taskId: Id, listId: Id, todoId: Id): (r: Outcome<Board>)
    ensures r.Threw? <==> (LocateTask(b, groupId, taskId).None?
                           || ToggleTodoIn(Located(b, groupId, taskId, b), listId, todoId).None?)
    ensures r.Threw? ==> r.after == b
    ensures ChangedOnlyLocated(b, groupId, taskId, r)
    ensures r.Done? ==>
      Some(Located(b, groupId, taskId, r.after)) == ToggleTodoIn(Located(b, groupId, taskId, b), listId, todoId)
  {
    match LocateTask(b, groupId, taskId)
    case None => Threw(b)
    case Some(p) =>
      match ToggleTodoIn(TaskAt(b, p), listId, todoId)
      case None => Threw(b)
      case Some(u) => Done(WithTask(b, p, u))
  }

  /** Toggling the same todo twice restores every todo of the board; the list keeps the recomputed progress. */
  lemma ToggleTodoTwice(b: Board, groupId: Id, taskId: Id, listId: Id, todoId: Id)
    requires ToggleTodo(b, groupId, taskId, listId, todoId).Done?
    ensures var r := ToggleTodo(ToggleTodo(b, groupId, taskId, listId, todoId).after, groupId, taskId, listId, todoId);
      var lists := ListsOf(b, groupId, taskId);
      var li := FindIndex(lists, ListKey, listId);
      var p := LocateTask(b, groupId, taskId).value;
      && r.Done?
      && r.after == WithTask(b, p, Located(b, groupId, taskId, b).(todoLists :=
           Some(lists[li := lists[li].(progress := Some(Progress(lists[li].todos)))])))
  {
    var p := LocateTask(b, groupId, taskId).value;
    var t := TaskAt(b, p);
    var u := ToggleTodoIn(t, listId, todoId).value;
    var r1 := WithTask(b, p, u);
    OnlyTaskDiffersKeepsLocate(b, r1, p, groupId, taskId);
    ToggleTodoInTwice(t, listId, todoId);
    var w := ToggleTodoIn(u, listId, todoId).value;
    WithTaskTwice(b, p, u, w);
  }

  /**
    `deleteTodoList`: splices out the list at the id's index: drops the first
    list with the id, or the last list when none has it.
   */
  function DeleteTodoList(b: Board, groupId: Id, taskId: Id, listId: Id): (r: Outcome<Board>)
    ensures r.Threw? <==> (LocateTask(b, groupId, taskId).None?
                           || Located(b, groupId, taskId, b).todoLists.None?)
    ensures r.Threw? ==> r.after == b
    ensures ChangedOnlyLocated(b, groupId, taskId, r)
    ensures r.Done? ==>
      var t := Located(b, groupId, taskId, b);
      var u := Located(b, groupId, taskId, r.after);
      && u.(todoLists := t.todoLists) == t
      && u.todoLists == Some(SpliceOutKey(t.todoLists.value, ListKey, listId))
  {
    match LocateTask(b, groupId, taskId)
    case None => Threw(b)
    case Some(p) =>
      var t := TaskAt(b, p);
      if t.todoLists.None? then Threw(b)
      else Done(WithTask(b, p, t.(todoLists := Some(SpliceOutKey(t.todoLists.value, ListKey, listId)))))
  }

  /** With unique list ids, deleting a present list leaves one list fewer and none with that id. */
  lemma DeleteTodoListDropsList(b: Board, groupId: Id, taskId: Id, listId: Id)
    requires ListResolves(b, groupId, taskId, listId)
    requires UniqueKeys(ListsOf(b, groupId, taskId), ListKey)
    ensures var r := DeleteTodoList(b, groupId, taskId, listId);
      && r.Done?
      && var u := Located(b, groupId, taskId, r.after);
         && |u.todoLists.value| == |ListsOf(b, groupId, taskId)| - 1
         && FreshKey(u.todoLists.value, ListKey, listId)
  {
    SpliceOutKeyDropsKey(ListsOf(b, groupId, taskId), ListKey, listId);
  }

  /** `toggleHideChecked`: flips the found list's hide-checked flag (undefined reads as false). */
  function ToggleHideChecked(b: Board, groupId: Id, taskId: Id, listId: Id): (r: Outcome<Board>)
    ensures r.Threw? <==> !ListResolves(b, groupId, taskId, listId)
    ensures r.Threw? ==> r.after == b
    ensures ChangedOnlyLocated(b, groupId, taskId, r)
    ensures r.Done? ==>
      var t := Located(b, groupId, taskId, b);
      var li := FindIndex(t.todoLists.value, ListKey, listId);
      var u := Located(b, groupId, taskId, r.after);
      && OnlyListDiffers(t, u, li)
      && u.todoLists.value[li].checkedHidden != t.todoLists.value[li].checkedHidden
      && u.todoLists.value[li].(checkedHidden := t.todoLists.value[li].checkedHidden) == t.todoLists.value[li]
  {
    match LocateTask(b, groupId, taskId)
    case None => Threw(b)
    case Some(p) =>
      var t := TaskAt(b, p);
      if t.todoLists.None? then Threw(b)
      else
        var lists := t.todoLists.value;
        var li := FindIndex(lists, ListKey, listId);
        if li < 0 then Threw(b)
        else
          var l := lists[li];
          Done(WithTask(b, p, t.(todoLists := Some(lists[li := l.(checkedHidden := if l.checkedHidden then false else true)]))))
  }

  /** Hiding checked todos is an involution: toggling twice restores the board. */
  lemma ToggleHideCheckedTwice(b: Board, groupId: Id, taskId: Id, listId: Id)
    ensures ToggleHideChecked(ToggleHideChecked(b, groupId, taskId, listId).after, groupId, taskId, listId).after == b
  {
    var o := ToggleHideChecked(b, groupId, taskId, listId);
    if o.Done? {
      var p := LocateTask(b, groupId, taskId).value;
      OnlyTaskDiffersKeepsLocate(b, o.after, p, groupId, taskId);
      var t := TaskAt(b, p);
      var u := TaskAt(o.after, p);
      var lists := t.todoLists.value;
      assert forall j :: 0 <= j < |lists| ==> u.todoLists.value[j].id == lists[j].id;
      FindIndexSameKeys(lists, u.todoLists.value, ListKey, listId);
      var li := FindIndex(lists, ListKey, listId);
      assert u.todoLists.value[li := lists[li]] == lists;
      WithTaskRestores(b, p, u);
    }
  }
}
